=== FILE: README.md ===
# igbot-haos: a Dafny model of the Montagne & Paesi Instagram bot

The bot reads the Montagne & Paesi RSS feed and looks at the newest entry. If that entry
has not been posted yet, the bot posts the article's featured image to Instagram. The
caption holds the title, a text excerpt, hashtags taken from the title, and the hub link.
The link of the last post is kept in a marker file. A small web panel saves the
credentials, starts the bot worker and stops it. A 400-line log is shown in the panel.

This project models the deterministic core of `app.py` and proves properties of the model:

- the text helpers (`clean_text`, `clamp_caption`, `hashtags_from_title`, and the cut at
  the end of both excerpt functions);
- paragraph selection in `get_article_excerpt`, and the content/summary rule of the feed
  fallback;
- the marker file, the log buffer, and the `InstagramPoster` login state;
- one cycle of `bot_loop`, and the loop as a whole;
- the `/save`, `/start` and `/stop` handlers.

Everything outside the process is an oracle, passed in as a value:

- the feed, the article page, the og:image tag;
- the image download, the upload result, the readability and writability of the marker file;
- the login result;
- BeautifulSoup's `get_text`, passed as a function `getText`.

A cycle returns its outcome and the list of outside calls it made, in order. Properties of
the form "no upload without a download" are stated over that list.

Modules, in dependency order:

- `Wrappers`: `Option` and `Result`.
- `Seqs`: Python slices with any integer bound.
- `Text`: whitespace, stripping, lower-casing, substring search.
- `Words`: `split()`, `" ".join` and whitespace squashing.
- `Caption`: the cut with an ellipsis.
- `Tags`: the hashtags.
- `Excerpt`: text extraction.
- `LogBuffer`, `Events`: the log and its lines.
- `MarkerStore`: the last-posted marker.
- `Instagram`: the poster.
- `BotLoop`: the worker.
- `Control`: the web handlers.

Some characters in `app.py` are mis-decoded UTF-8. They are read as follows:

- `‚Ä¶` is the ellipsis U+2026.
- `√®` is `è`.
- The accented letters of the word pattern are `àèéìòùÀÈÉÌÒÙ`.
- `üëâ` is U+1F449.

`app.py` has no session file, cookie login, device identity or upload retry, so the model
has none either.

## Model

| member | source | states |
|---|---|---|
| Seqs.SliceTo | app.py:85 | Python's `s[:n]` for any integer `n`: a prefix of `s`, of length `min(n, len)` for `n >= 0` and `max(0, len + n)` for negative `n` |
| Seqs.SliceFrom | app.py:44 | Python's `s[n:]` for any integer `n`: a suffix of `s`, the last `min(-n, len)` elements for negative `n` |
| Text.Strip | app.py:82 | `str.strip()`: the result is no longer than the input and has no whitespace at either end |
| Text.StripPadded | app.py:82 | stripping removes exactly the surrounding whitespace: `Strip(a + t + c) == t` when `a` and `c` are all whitespace and `t` has none at its ends |
| Text.StripIdempotent | app.py:63 | stripping twice is stripping once, so a marker written stripped reads back unchanged |
| Text.RStripSplit | app.py:85 | `rstrip()` removes exactly the trailing whitespace run: a text that does not end in whitespace, followed by whitespace, rstrips to that text |
| Text.Lower | app.py:94 | `str.lower()` keeps the length and leaves no upper-case letter |
| Text.LowerSpec | app.py:94 | each character of the lower-cased text is the input character, or, when it is an ASCII or Latin-1 capital, its small letter 32 code points higher |
| Text.Contains | app.py:166 | the `in` operator on strings holds exactly when the needle occurs at some position |
| Text.DropWhileSplit | app.py:77 | skipping a class from the front stops at the first character outside the class, whatever follows it |
| Words.SplitJoin | app.py:101 | splitting the space-joined list of words gives back exactly those words |
| Words.CollapseIsJoinSplit | app.py:77 | `re.sub(r"\s+", " ", s).strip()` equals `" ".join(s.split())` for every string |
| Words.CollapseIdempotent | app.py:77 | collapsing whitespace twice is collapsing it once |
| Words.CollapseNonEmpty | app.py:77 | a string with a non-whitespace character still has a non-empty result after collapsing |
| Words.RunsMaximal | app.py:94 | `re.findall` takes runs whole: after a block of non-letters, a letter run that ends at a non-letter or at the end of the text is the next word, unsplit |
| Words.RunsContent | app.py:94 | the runs `re.findall` returns for a character class, concatenated, are exactly the text's characters of that class, in order |
| Caption.Cut | app.py:85 | the cut is a prefix of `s[:n]` with its trailing whitespace removed, followed by the ellipsis |
| Caption.CutUnique | app.py:85 | only one string is such a cut, so the property of `Cut` fully determines the result |
| Caption.CutBounds | app.py:85 | the cut body is a prefix of the text, the result has at most `n` + 1 characters, and a stripped text gives a stripped cut |
| Caption.ClampCaption | app.py:81-85 | a caption that fits after stripping is returned stripped; otherwise it is the cut at `max_len - 1`; with `max_len >= 1` the result is at most `max_len` long and it never has edge whitespace |
| Caption.ClampIdempotent | app.py:81-85 | clamping a clamped caption changes nothing |
| Caption.ClampKeepsShort | app.py:83-84 | a stripped caption within the limit is returned unchanged |
| Caption.TruncateExcerpt | app.py:178-179 | text within `max_chars` is returned as is; longer text is cut at `max_chars`, giving at most `max_chars` + 1 characters |
| Tags.TagsOf | app.py:95-98 | every element of the result is `#` followed by a taggable word (at least 4 characters, not a stopword); there are no more tags than words |
| Tags.TagsOfAppend | app.py:96-98 | tag extraction distributes over concatenation, so words are tagged in title order |
| Tags.TitleTags | app.py:94-101 | `tags[:max_tags]`: the title tags are a prefix of the tags of all title words, exactly `min(max_tags, n)` of them for `n` tags |
| Tags.TitleWordsShape | app.py:94 | the title words are non-empty runs of pattern letters without capitals, and together they hold every letter of the lower-cased title, in order |
| Tags.HashtagsSplit | app.py:100-101 | the hashtag string splits back into exactly the five fixed tags followed by the title tags |
| Tags.HashtagsStartFixed | app.py:100-101 | the hashtag string always starts with the five fixed tags |
| Excerpt.CleanText | app.py:73-78 | empty input gives `""`; otherwise the result is the `getText` output's words joined by single spaces, with no edge whitespace |
| Excerpt.FeaturedImageUrl | app.py:112-124 | the result is the stripped og:image content, or `""` when the page or the tag is missing |
| Excerpt.RemoveBlanks | app.py:168 | `replace(" ", "")` leaves no blank and does not lengthen the string |
| Excerpt.RemoveBlanksOne | app.py:168 | a single character is dropped exactly when it is a blank |
| Excerpt.RemoveBlanksAppend | app.py:168 | removing blanks distributes over concatenation, so every other character is kept, in order |
| Excerpt.SelectParagraphs | app.py:160-172 | every kept paragraph is non-empty, at least 25 characters long, and has neither the promotional phrase nor the channel link |
| Excerpt.SelectOne | app.py:162-172 | a single paragraph is kept exactly when it passes the filter |
| Excerpt.SelectAppend | app.py:161-172 | selection distributes over concatenation, so kept paragraphs keep their page order |
| Excerpt.ArticleExcerpt | app.py:127-182 | a missing page or content container gives `""`; otherwise the cleaned, joined text of the selected paragraphs: `""` when that is empty, the text when it fits, its cut at `max_chars` when longer |
| Excerpt.FeedText | app.py:190-194 | the first content value when it is non-empty, otherwise the summary, otherwise `""` |
| Excerpt.FeedExcerpt | app.py:185-204 | the cleaned feed text, `""` when that is empty, cut at `max_chars` when longer |
| Excerpt.PickExcerpt | app.py:287-289 | the article excerpt unless it is empty, else the feed excerpt; always at most 901 characters, with no edge whitespace |
| LogBuffer.Append | app.py:38-44 | after logging, the buffer is the most recent 400 lines of the old buffer followed by the new line, so `min(n + 1, 400)` lines with the new one last |
| LogBuffer.AppendAllRecent | app.py:38-44 | after any number of lines are logged, the buffer holds exactly the most recent 400 lines, oldest dropped first |
| LogBuffer.RecentConcat | app.py:43-44 | trimming early does not change which lines are most recent |
| LogBuffer.LogsShowsAll | app.py:465-468 | the buffer never exceeds 400 lines, so `/logs` returns it whole |
| LogBuffer.FiveHundredLines | app.py:38-44 | 500 lines logged into an empty buffer leave lines 100 to 499, in order |
| MarkerStore.Newlines | app.py:62 | reading in text mode turns each `"\r\n"` and each lone `"\r"` into `"\n"`: the result has no carriage return and is no longer than the file |
| MarkerStore.NewlinesPlain | app.py:62 | a file with no carriage return reads back unchanged |
| MarkerStore.ReadMarker | app.py:60-64 | a missing file reads as `""`; the result never has edge whitespace; a stripped content reads back as its newline-translated text |
| MarkerStore.ReadMarkerStrips | app.py:60-63 | an existing marker file reads as its contents, newline-translated, then stripped |
| MarkerStore.Emptied | app.py:69-70 | a marker file emptied by `open(path, "w")` and a failed write exists and reads as `""` |
| MarkerStore.SaveMarker | app.py:67-70 | after saving, the file exists and reads back as the stripped URL, newline-translated |
| MarkerStore.MarkerRoundTrip | app.py:60-70 | saving a stripped link and reading the marker gives the link back exactly when the link holds no carriage return |
| MarkerStore.CarriageReturnExample | app.py:60-70 | the saved link `a\rb` reads back as `a\nb` |
| Instagram.NewPoster | app.py:219-222 | a new poster is not logged in |
| Instagram.Login | app.py:224-228 | a successful login sets the poster logged in and logs both lines; a failure leaves the poster as it was and logs only the first line |
| Instagram.PostPhoto | app.py:230-238 | the upload is attempted exactly when logged in; without a login the result is `LoginRequired` and nothing is logged; the post succeeds exactly when the upload does, and only then is "published" logged |
| Instagram.NoPostWithoutLogin | app.py:230-235 | a poster that never logged in never calls the upload |
| BotLoop.BuildCaption | app.py:293-301 | for any hub link, the uploaded caption is at most 2200 characters and has no edge whitespace |
| BotLoop.BuildCaptionClamps | app.py:293-301 | the uploaded caption is the stripped template when it fits in 2200 characters, else the cut of the stripped template at 2199 characters |
| BotLoop.CaptionUnclamped | app.py:294-301 | a template caption that fits is uploaded unchanged and starts with the title, when the hub link is non-empty and does not end in whitespace |
| BotLoop.DefaultHubPlain | app.py:23 | the default hub link is non-empty and does not end in whitespace |
| BotLoop.EmptyHubDropsBlank | app.py:82 | with an empty hub link, even a caption that fits is changed by the strip, which takes off the blank after the arrow |
| BotLoop.MissingMarkerReads | app.py:60-64 | a cycle never fails reading the marker when the marker file does not exist |
| BotLoop.PostsEntryLink | app.py:267 | a post is of the newest feed entry's link, stripped |
| BotLoop.DraftIsTemplate | app.py:287-301 | a post's caption is the clamped template of its title and excerpt; the excerpt is the article's when non-empty, else the feed's |
| BotLoop.RunCycle | app.py:259-316 | every cycle ends with one sleep; the marker changes only by a post or by a failed write that empties it; a post happens only when the upload returned and the marker was saved, by a logged-in poster after a successful download, and saves a link that is new, non-empty and stripped; the post's caption comes from the template; an entry already posted causes exactly a feed fetch, a marker read and a sleep; every upload comes right after a successful image download, with an image URL, a login and a caption within the limit |
| BotLoop.RunLoop | app.py:259-318 | cycles run while the stop flag is clear; the loop stops exactly at the first set flag; the marker left is the last cycle's, or the starting one when no cycle ran |
| BotLoop.RunLoopChained | app.py:259-316 | the cycles run are a chain: each runs on its own tick's world and on the marker the cycle before it left |
| BotLoop.RunLoggedIn | app.py:259-316 | with a logged-in poster no cycle of the loop fails for lack of a login |
| BotLoop.RunNoRepeat | app.py:275-311 | over a whole run, each posted link differs from what the marker read after the value written before it, so a link is posted twice in a row only across an emptied marker or a carriage return; the final marker reads as the last value written, newline-translated |
| BotLoop.NoRepeatsPlain | app.py:275-311 | when no written value holds a carriage return, no posted link equals the value written just before it and the final marker reads as the last value written |
| BotLoop.BotLoop | app.py:242-257 | a failed login (2FA, challenge, other) runs no cycle, changes no marker and logs the start and the abort; a failure to create the image directory ends the bot after the login with no cycle and no further line; otherwise the loop runs logged in, and no cycle fails for lack of login |
| BotLoop.PostsNewEntry | app.py:259-311 | a complete new entry, with an image, a download and an upload that succeed, is posted; the marker then reads as its link newline-translated, which is the link itself when it has no carriage return |
| BotLoop.SecondSightingIsQuiet | app.py:275-279 | an entry just posted, whose link has no carriage return, is not posted again on the next cycle |
| BotLoop.CarriageReturnReposts | app.py:275-279 | an entry just posted whose link holds a carriage return is uploaded again on the next cycle, when the marker can be read |
| BotLoop.PostsAgain | app.py:259-311 | a cycle that posts an entry also posts it from any readable marker that does not read as the entry's link |
| BotLoop.RepostAfterWriteFailure | app.py:67-70 | when the marker cannot be saved after an upload, it is unchanged (open failed) or empty (write failed), and the same entry is uploaded again once the file can be read and written |
| BotLoop.StormScenario | app.py:259-316 | a sample entry on an empty marker is posted, and the next cycle sees it as already posted |
| Control.LoadConfig | app.py:47-51 | the file's object when it exists, else the default feed URL and empty credentials |
| Control.Save | app.py:413-421 | the three fields are stored stripped, an empty feed URL becomes the default, every other key is kept, and "config saved" is logged |
| Control.StartCredential | app.py:428-429 | the form username (or password) if it is non-empty after stripping, else the stripped configured one |
| Control.StartRss | app.py:430 | the form feed URL if it is non-empty after stripping, else the configured one, or the default when none is configured |
| Control.Start | app.py:423-451 | refuses exactly when the resolved username or password is empty, and then changes nothing but the log; otherwise it saves the resolved values; it starts a worker exactly when none is alive, with the resolved credentials, clearing the stop flag |
| Control.Stop | app.py:453-457 | the stop flag is set and nothing else changes but the log |
| Control.StartTwice | app.py:441-445 | a second start while the first worker is alive starts no other worker |
| Control.SaveThenStart | app.py:413-451 | after saving both credentials, starting with an empty form starts the worker with exactly the saved values |

## Left out

- Network access (`feedparser`, `requests`), HTML parsing and the file system are oracles.
  The feed result, the page contents, the og:image value, the download and upload results,
  and whether the marker file can be read or written are all parameters of a cycle.
- BeautifulSoup's `get_text(" ", strip=True)` is the parameter `getText`.
- The removal of promotional boxes at app.py:138-158 happens inside the parsed tree. The
  model receives the paragraph texts after that removal.
- The parsed-tree search order for the content container (app.py:141-149) is part of the
  page oracle: a page without a container is `None`.
- Exceptions raised inside the excerpt functions make them return `""`. This is covered by
  the oracle returning `None` for the page. Errors in the middle of parsing are not modelled.
- Threads, the two locks and `CHECK_INTERVAL` are left out. A sleep is recorded as a `Sleep`
  call, without its duration. The stop flag is read once before each cycle, through the `Tick`
  sequence.
- `bot_loop` never ends while the stop flag stays clear. `RunLoop` models a finite prefix
  of ticks.
- Timestamps and the Italian wording of log lines are left out. Lines are `LogEvent`
  values. The "web UI ready" line at app.py:471 comes from the Flask start-up and is left out.
- Flask routing, the HTML page, redirects, `/` (app.py:400-411) and `/status` (app.py:459-463)
  are left out. `/status` only reports thread liveness, which is the `workerAlive` field.
- Text.Lower: lower-cases only the ASCII and Latin-1 capitals. Python's `str.lower` covers
  all of Unicode, and a few characters outside Latin-1 lower-case into pattern letters:
  U+212A (Kelvin sign) becomes `k`, and U+0130 becomes `i` followed by U+0307, which also
  lengthens the text. Titles or paragraphs holding them get different words, tags or
  phrase matches in the source.
- MarkerStore.SaveMarker: the write in text mode (app.py:69) is modelled as storing the text
  unchanged, which is what Python does where the line separator is `"\n"`; on a platform
  whose separator is `"\r\n"` a line feed in the link would be written as two characters.
- MarkerStore.Emptied: a write that raises after writing part of the link, leaving a prefix
  of it in the file, is modelled as leaving the file empty.
- Control.LoadConfig: the configuration is a map of strings. A JSON file holding other value
  types, which would make `.strip()` raise, is not modelled. Neither is a file that is not
  valid JSON.
- Environment overrides of the paths and of the default feed are left out. `HUB_LINK`
  (app.py:23) is kept: it is the `hubLink` of each cycle's `World`, so the model allows any
  value, and even a different one per cycle where the source reads it once.
- `download_image` writes to `/data/images/latest.jpg`. Only its success or failure is kept.

=== FILE: botloop.dfy ===
/** `bot_loop` (app.py:242-318): log in once, then run check cycles until the stop flag is
    seen. Every outside effect of a cycle (feed, marker file, article page, image download,
    upload) is an oracle: the cycle is given its outcome and records the call in a trace. */
module BotLoop {
  import opened Wrappers
  import opened Text
  import opened Words
  import opened Caption
  import opened Tags
  import opened Excerpt
  import opened Events
  import opened MarkerStore
  import opened Instagram

  /** The default of `HUB_LINK`, the link printed at the end of every caption (app.py:23). */
  const DefaultHubLink: string := "www.montagneepaesi.com/instagram"

  /** The caption limit passed to `clamp_caption` (app.py:301). */
  const CaptionLimit: int := 2200

  /** Everything after the title in the caption template of app.py:294-300, for the hub
      link `hub`. */
  function CaptionTail(excerpt: string, tags: string, hub: string): string {
    "\n\n" + excerpt + "\n\n" + tags + "\n\n" + "\U{1F449} " + hub
  }

  /** The caption before clamping: title, excerpt, hashtags and hub link, separated by blank
      lines. */
  function RawCaption(hub: string, title: string, excerpt: string): string {
    title + CaptionTail(excerpt, Hashtags(title, MaxTags), hub)
  }

  /** The caption that is uploaded. */
  function BuildCaption(hub: string, title: string, excerpt: string): (r: string)
    ensures |r| <= CaptionLimit
    ensures NoEdgeSpace(r)
  {
    ClampCaption(RawCaption(hub, title, excerpt), CaptionLimit)
  }

  /** The uploaded caption is the stripped template when that fits in 2200 characters, and
      otherwise its first 2199 characters, right-stripped, followed by the ellipsis. */
  lemma BuildCaptionClamps(hub: string, title: string, excerpt: string)
    ensures var raw := Strip(RawCaption(hub, title, excerpt));
      && (|raw| <= CaptionLimit ==> BuildCaption(hub, title, excerpt) == raw)
      && (|raw| > CaptionLimit ==> IsCutOf(BuildCaption(hub, title, excerpt), raw, CaptionLimit - 1))
  {
  }

  /** The template ends with the hub link's last character, or with the blank after the
      arrow when the link is empty. */
  lemma TailEnd(excerpt: string, tags: string, hub: string)
    ensures var t := CaptionTail(excerpt, tags, hub);
      && |t| > 0
      && (hub != [] ==> t[|t| - 1] == hub[|hub| - 1])
      && (hub == [] ==> t[|t| - 1] == ' ')
  {
  }

  /** A caption that fits is uploaded exactly as the template builds it, title first, as
      long as the hub link does not end in whitespace (the default does not). */
  lemma CaptionUnclamped(hub: string, title: string, excerpt: string)
    requires hub != [] && !IsSpace(hub[|hub| - 1])
    requires title != [] && NoEdgeSpace(title)
    requires |RawCaption(hub, title, excerpt)| <= CaptionLimit
    ensures BuildCaption(hub, title, excerpt) == RawCaption(hub, title, excerpt)
    ensures title <= BuildCaption(hub, title, excerpt)
  {
    var tail := CaptionTail(excerpt, Hashtags(title, MaxTags), hub);
    var raw := RawCaption(hub, title, excerpt);
    TailEnd(excerpt, Hashtags(title, MaxTags), hub);
    assert raw == title + tail;
    assert raw[0] == title[0];
    assert raw[|raw| - 1] == tail[|tail| - 1];
    ClampKeepsShort(raw, CaptionLimit);
  }

  /** The default hub link meets the hypothesis of `CaptionUnclamped`. */
  lemma DefaultHubPlain()
    ensures DefaultHubLink != [] && !IsSpace(DefaultHubLink[|DefaultHubLink| - 1])
  {
  }

  /** With an empty `HUB_LINK` the strip of `clamp_caption` takes the blank after the arrow
      off even a caption that fits. */
  lemma EmptyHubDropsBlank(title: string, excerpt: string)
    requires |RawCaption([], title, excerpt)| <= CaptionLimit
    ensures BuildCaption([], title, excerpt) != RawCaption([], title, excerpt)
  {
    var raw := RawCaption([], title, excerpt);
    TailEnd(excerpt, Hashtags(title, MaxTags), []);
    assert raw[|raw| - 1] == ' ';
  }

  /** The outcomes of one cycle's calls to the outside world. */
  datatype World = World(
    hubLink: string,                          // `HUB_LINK`, read from the environment (app.py:23)
    feed: Result<Option<FeedEntry>, string>,  // newest entry, none (also an entry with no keys), or the error raised
    getText: string -> string,                // BeautifulSoup's text extraction
    markerReadable: bool,                     // reading the marker file, if it exists, does not raise
    og: Option<string>,                       // the article's og:image content, if any
    page: ArticlePage,                        // the article's paragraphs, if any
    downloadOk: bool,                         // `download_image` returned True
    upload: Option<string>,                   // the error the upload raised, if any
    markerWrite: MarkerWrite)                 // how saving the marker file goes

  /** How `save_last_posted_url` (app.py:67-70) goes. `open(path, "w")` truncates the file
      before `f.write`, so a write that raises leaves it empty. */
  datatype MarkerWrite =
    | WriteOk                                 // the link is written
    | OpenFails                               // `makedirs` or `open` raises: the file is untouched
    | WriteFails                              // the write raises after `open` emptied the file

  /** The outside calls of a cycle, in the order made. */
  datatype Call =
    | FetchFeed
    | ReadLast
    | FetchImage(url: string)
    | FetchArticle(url: string)
    | Download(image: string)
    | Upload(caption: string)
    | WriteLast(link: string)
    | Sleep

  datatype Outcome =
    | NoEntry
    | Incomplete
    | AlreadyPosted
    | NoImage
    | NoDownload
    | Posted(link: string, caption: string)
    | Failed(fault: Fault)

  /** A cycle's effect: the marker store after it, its calls, its log lines, its outcome. */
  datatype Cycle = Cycle(store: Store, calls: seq<Call>, logs: seq<LogEvent>, outcome: Outcome)

  /** The entry link as the loop reads it (app.py:267). */
  function LinkOf(e: FeedEntry): string { Strip(e.link) }

  /** The entry title as the loop reads it (app.py:268). */
  function TitleOf(e: FeedEntry, getText: string -> string): string {
    CleanText(Strip(e.title), getText)
  }

  /** `get_last_posted_url` (app.py:60-64) can raise only when the file exists: a missing
      file reads as `""` without opening anything. */
  predicate MarkerReads(st: Store, w: World) {
    st.file.None? || w.markerReadable
  }

  /** The cycle finds an entry with a link and a title whose link is already the marker. */
  predicate IsDuplicate(st: Store, w: World) {
    && w.feed.Success? && w.feed.value.Some?
    && var e := w.feed.value.value;
       && LinkOf(e) != [] && TitleOf(e, w.getText) != []
       && MarkerReads(st, w)
       && LinkOf(e) == ReadMarker(st)
  }

  /** The calls end with the cycle's one sleep. */
  predicate EndsWithSleep(calls: seq<Call>) {
    |calls| > 0 && calls[|calls| - 1] == Sleep && Sleep !in calls[..|calls| - 1]
  }

  /** Every upload follows a successful download, carries a caption within the limit, and
      happens only with a logged-in poster and an image found. */
  predicate UploadsGuarded(calls: seq<Call>, p: Poster, w: World) {
    forall i :: 0 <= i < |calls| && calls[i].Upload? ==>
      && i > 0 && calls[i - 1].Download?
      && |calls[i].caption| <= CaptionLimit
      && p.loggedIn && w.downloadOk && FeaturedImageUrl(w.og) != []
  }

  /** The guarantees every stage of a cycle keeps: one final sleep; a marker that changes
      only by recording the posted link, or by being emptied by a failed write; a post only
      after an upload that returned, by a logged-in poster, and a marker write that
      succeeded; guarded uploads; and a login failure only without a login. */
  predicate Sound(p: Poster, st: Store, w: World, r: Cycle) {
    && EndsWithSleep(r.calls)
    && (!r.outcome.Posted? && r.outcome != Failed(MarkerWriteFault) ==> r.store == st)
    && (r.outcome == Failed(MarkerWriteFault) ==> r.store == Emptied())
    && (r.outcome.Posted? ==>
          && r.store == SaveMarker(st, r.outcome.link) && Upload(r.outcome.caption) in r.calls
          && p.loggedIn && w.downloadOk && w.upload.None? && w.markerWrite == WriteOk)
    && UploadsGuarded(r.calls, p, w)
    && (r.outcome == Failed(NotLoggedIn) ==> !p.loggedIn)
  }

  /** A cycle that stops before any upload. */
  function Skip(p: Poster, w: World, st: Store, calls: seq<Call>, logs: seq<LogEvent>, o: Outcome): (r: Cycle)
    requires !o.Posted? && o != Failed(MarkerWriteFault)
    requires Sleep !in calls && forall i :: 0 <= i < |calls| ==> !calls[i].Upload?
    requires o == Failed(NotLoggedIn) ==> !p.loggedIn
    ensures Sound(p, st, w, r)
    ensures r.outcome == o && r.calls == calls + [Sleep] && r.store == st
  {
    var r := Cycle(st, calls + [Sleep], logs, o);
    assert (calls + [Sleep])[..|calls|] == calls;
    r
  }

  /** The last steps of a cycle that has an image and a caption (app.py:303-311). */
  function Publish(p: Poster, st: Store, w: World, link: string, title: string, caption: string,
                   calls: seq<Call>, logs: seq<LogEvent>): (r: Cycle)
    requires |caption| <= CaptionLimit && w.downloadOk && FeaturedImageUrl(w.og) != []
    requires |calls| > 0 && calls[|calls| - 1].Download? && Sleep !in calls
    requires forall i :: 0 <= i < |calls| ==> !calls[i].Upload?
    ensures Sound(p, st, w, r)
    ensures r.outcome.Posted? ==> r.outcome == Posted(link, caption)
    ensures r.outcome.Posted? || r.outcome.Failed?
  {
    var post := PostPhoto(p, w.upload);
    var logs' := logs + [Publishing(title)] + post.logs;
    if !post.uploadCalled then
      Skip(p, w, st, calls, logs' + [CycleError(NotLoggedIn)], Failed(NotLoggedIn))
    else
      var calls' := calls + [Upload(caption)];
      assert forall i :: 0 <= i < |calls'| && calls'[i].Upload? ==> i == |calls|;
      match post.error
      case Some(_) =>
        var f := UploadFault(w.upload.value);
        Finish(p, w, st, st, calls', [Sleep], logs' + [CycleError(f)], Failed(f))
      case None =>
        match w.markerWrite
        case OpenFails =>
          Finish(p, w, st, st, calls', [WriteLast(link), Sleep], logs' + [CycleError(MarkerOpenFault)], Failed(MarkerOpenFault))
        case WriteFails =>
          Finish(p, w, st, Emptied(), calls', [WriteLast(link), Sleep], logs' + [CycleError(MarkerWriteFault)], Failed(MarkerWriteFault))
        case WriteOk =>
          Finish(p, w, st, SaveMarker(st, link), calls', [WriteLast(link), Sleep], logs', Posted(link, caption))
  }

  /** The end of a cycle that uploaded: its last call was the upload. */
  function Finish(p: Poster, w: World, st: Store, st': Store, calls: seq<Call>, after: seq<Call>,
                  logs: seq<LogEvent>, o: Outcome): (r: Cycle)
    requires UploadsGuarded(calls, p, w) && Sleep !in calls && |calls| > 0
    requires after == [Sleep] || (|after| == 2 && after[0].WriteLast? && after[1] == Sleep)
    requires o != Failed(NotLoggedIn)
    requires !o.Posted? && o != Failed(MarkerWriteFault) ==> st' == st
    requires o == Failed(MarkerWriteFault) ==> st' == Emptied()
    requires o.Posted? ==>
      && st' == SaveMarker(st, o.link) && calls[|calls| - 1] == Upload(o.caption)
      && w.upload.None? && w.markerWrite == WriteOk
    ensures Sound(p, st, w, r)
    ensures r.outcome == o
  {
    var cs := calls + after;
    assert cs[..|cs| - 1] == calls + after[..|after| - 1];
    assert forall i :: |calls| <= i < |cs| ==> !cs[i].Upload?;
    assert o.Posted? ==> cs[|calls| - 1] == Upload(o.caption);
    Cycle(st', cs, logs, o)
  }

  /** The excerpt (app.py:287-289) and the clamped caption (app.py:293-301) of a post. */
  datatype Draft = Draft(excerpt: string, caption: string)

  function DraftOf(w: World, e: FeedEntry, title: string): (r: Draft)
    ensures |r.caption| <= CaptionLimit
    ensures NoEdgeSpace(r.excerpt)
  {
    var excerpt := PickExcerpt(w.page, e, w.getText);
    Draft(excerpt, BuildCaption(w.hubLink, title, excerpt))
  }

  /** The image lookup (app.py:281-285), for a new link. */
  function Fetch(p: Poster, st: Store, w: World, e: FeedEntry, link: string, title: string): (r: Cycle)
    ensures Sound(p, st, w, r)
    ensures r.outcome.Posted? ==> r.outcome == Posted(link, DraftOf(w, e, title).caption)
    ensures r.outcome != AlreadyPosted
  {
    var img := FeaturedImageUrl(w.og);
    if img == [] then
      Skip(p, w, st, [FetchFeed, ReadLast, FetchImage(link)], [ImageNotFound], NoImage)
    else
      Prepare(p, st, w, link, title, img, DraftOf(w, e, title))
  }

  /** From the excerpt to the end of the cycle (app.py:287-311), once an image is found. */
  function Prepare(p: Poster, st: Store, w: World, link: string, title: string, img: string, d: Draft): (r: Cycle)
    requires img == FeaturedImageUrl(w.og) && img != [] && |d.caption| <= CaptionLimit
    ensures Sound(p, st, w, r)
    ensures r.outcome.Posted? ==> r.outcome == Posted(link, d.caption)
    ensures r.outcome != AlreadyPosted
  {
    var calls := [FetchFeed, ReadLast, FetchImage(link), FetchArticle(link), Download(img)];
    var logs := [ExcerptLength(|d.excerpt|)];
    if !w.downloadOk then
      Skip(p, w, st, calls, logs + [DownloadFailed], NoDownload)
    else
      Publish(p, st, w, link, title, d.caption, calls, logs)
  }

  /** From reading the entry to the duplicate check (app.py:267-279). */
  function Examine(p: Poster, st: Store, w: World, e: FeedEntry): (r: Cycle)
    ensures Sound(p, st, w, r)
    ensures r.outcome.Posted? ==>
      && r.outcome.link == LinkOf(e) && r.outcome.link != []
      && r.outcome.link != ReadMarker(st)
      && r.outcome.caption == DraftOf(w, e, TitleOf(e, w.getText)).caption
    ensures r.outcome == AlreadyPosted <==>
      && LinkOf(e) != [] && TitleOf(e, w.getText) != []
      && MarkerReads(st, w) && LinkOf(e) == ReadMarker(st)
    ensures r.outcome == AlreadyPosted ==> r.calls == [FetchFeed, ReadLast, Sleep]
  {
    var link := LinkOf(e);
    var title := TitleOf(e, w.getText);
    if link == [] || title == [] then
      Skip(p, w, st, [FetchFeed], [IncompleteEntry], Incomplete)
    else
      Compare(p, st, w, e, link, title)
  }

  /** The duplicate check (app.py:275-279) for an entry with a link and a title. */
  function Compare(p: Poster, st: Store, w: World, e: FeedEntry, link: string, title: string): (r: Cycle)
    ensures Sound(p, st, w, r)
    ensures r.outcome.Posted? ==>
      && r.outcome.link == link && r.outcome.link != ReadMarker(st)
      && r.outcome.caption == DraftOf(w, e, title).caption
    ensures r.outcome == AlreadyPosted <==> MarkerReads(st, w) && link == ReadMarker(st)
    ensures r.outcome == AlreadyPosted ==> r.calls == [FetchFeed, ReadLast, Sleep]
  {
    if !MarkerReads(st, w) then
      Skip(p, w, st, [FetchFeed, ReadLast], [CycleError(MarkerReadFault)], Failed(MarkerReadFault))
    else if link == ReadMarker(st) then
      Skip(p, w, st, [FetchFeed, ReadLast], [NothingNew], AlreadyPosted)
    else
      Fetch(p, st, w, e, link, title)
  }

  /** One pass through the body of the `while` loop of app.py:259-316. */
  function RunCycle(p: Poster, st: Store, w: World): (r: Cycle)
    ensures EndsWithSleep(r.calls)
    ensures !r.outcome.Posted? && r.outcome != Failed(MarkerWriteFault) ==> r.store == st
    ensures r.outcome == Failed(MarkerWriteFault) ==> r.store == Emptied()
    ensures r.outcome.Posted? ==> r.store == SaveMarker(st, r.outcome.link)
    ensures r.outcome.Posted? ==>
      && r.outcome.link != [] && NoEdgeSpace(r.outcome.link)
      && r.outcome.link != ReadMarker(st)
      && Upload(r.outcome.caption) in r.calls
      && p.loggedIn && w.downloadOk && w.upload.None? && w.markerWrite == WriteOk
      && w.feed.Success? && w.feed.value.Some?
      && var e := w.feed.value.value;
         r.outcome.caption == DraftOf(w, e, TitleOf(e, w.getText)).caption
    ensures IsDuplicate(st, w) ==> r.outcome == AlreadyPosted && r.calls == [FetchFeed, ReadLast, Sleep]
    ensures r.outcome == AlreadyPosted ==> IsDuplicate(st, w)
    ensures UploadsGuarded(r.calls, p, w)
    ensures r.outcome == Failed(NotLoggedIn) ==> !p.loggedIn
  {
    match w.feed
    case Failure(msg) =>
      Skip(p, w, st, [FetchFeed], [CycleError(FeedFault(msg))], Failed(FeedFault(msg)))
    case Success(None) =>
      Skip(p, w, st, [FetchFeed], [NoArticles], NoEntry)
    case Success(Some(e)) =>
      Examine(p, st, w, e)
  }

  /** A post is of the newest feed entry's link, as the loop reads it. */
  lemma PostsEntryLink(p: Poster, st: Store, w: World)
    ensures var r := RunCycle(p, st, w);
      r.outcome.Posted? ==> w.feed.Success? && w.feed.value.Some? && r.outcome.link == LinkOf(w.feed.value.value)
  {
  }

  /** A cycle never fails reading a marker file that does not exist. */
  lemma MissingMarkerReads(p: Poster, st: Store, w: World)
    ensures st.file.None? ==> RunCycle(p, st, w).outcome != Failed(MarkerReadFault)
  {
  }

  /** A post's caption is the template filled with the entry's title and the chosen
      excerpt: the article's when it has one, the feed entry's otherwise. */
  lemma DraftIsTemplate(w: World, e: FeedEntry, title: string)
    ensures var d := DraftOf(w, e, title);
      && d.caption == BuildCaption(w.hubLink, title, d.excerpt)
      && (ArticleExcerpt(w.page, MaxChars, w.getText) != [] ==> d.excerpt == ArticleExcerpt(w.page, MaxChars, w.getText))
      && (ArticleExcerpt(w.page, MaxChars, w.getText) == [] ==> d.excerpt == FeedExcerpt(e, MaxChars, w.getText))
  {
  }

  /** What the stop flag reads before a cycle, and what that cycle meets. */
  datatype Tick = Tick(stop: bool, world: World)

  /** The cycles run, the marker store left, whether the stop flag was seen, and the lines
      logged. */
  datatype Run = Run(store: Store, cycles: seq<Cycle>, stopped: bool, logs: seq<LogEvent>)

  /** `cs` is what the loop runs from the store `st` over the first `|cs|` ticks: each
      cycle runs on its tick's world and on the store the cycle before it left. */
  predicate Chained(p: Poster, st: Store, cs: seq<Cycle>, ticks: seq<Tick>)
    decreases |cs|
  {
    && |cs| <= |ticks|
    && (cs != [] ==>
          && cs[0] == RunCycle(p, st, ticks[0].world)
          && Chained(p, cs[0].store, cs[1..], ticks[1..]))
  }

  /** The `while not stop_event.is_set()` loop of app.py:259-318 over a finite prefix of
      ticks: each tick either sees the flag and ends the loop, or runs one cycle on the
      marker store the previous cycle left. No cycle outcome ends the loop. */
  function RunLoop(p: Poster, st: Store, ticks: seq<Tick>): (r: Run)
    ensures |r.cycles| <= |ticks|
    ensures forall i :: 0 <= i < |r.cycles| ==> !ticks[i].stop
    ensures r.stopped <==> |r.cycles| < |ticks|
    ensures r.stopped ==> ticks[|r.cycles|].stop
    ensures r.store == if |r.cycles| == 0 then st else r.cycles[|r.cycles| - 1].store
    decreases |ticks|
  {
    if ticks == [] then Run(st, [], false, [])
    else if ticks[0].stop then Run(st, [], true, [BotStopped])
    else
      var c := RunCycle(p, st, ticks[0].world);
      var rest := RunLoop(p, c.store, ticks[1..]);
      Run(rest.store, [c] + rest.cycles, rest.stopped, c.logs + rest.logs)
  }

  /** The cycles the loop runs form a chain: each runs on its tick's world and on the
      store the cycle before it left. */
  lemma {:induction false} RunLoopChained(p: Poster, st: Store, ticks: seq<Tick>)
    ensures Chained(p, st, RunLoop(p, st, ticks).cycles, ticks)
    decreases |ticks|
  {
    if ticks != [] && !ticks[0].stop {
      var c := RunCycle(p, st, ticks[0].world);
      var rest := RunLoop(p, c.store, ticks[1..]);
      RunLoopChained(p, c.store, ticks[1..]);
      assert ([c] + rest.cycles)[1..] == rest.cycles;
    }
  }

  /** What the cycles leave in the marker file, in order: the link of each post, and `""`
      for each failed write that emptied the file. */
  function Written(cs: seq<Cycle>): seq<string>
    decreases |cs|
  {
    if cs == [] then []
    else if cs[0].outcome.Posted? then [cs[0].outcome.link] + Written(cs[1..])
    else if cs[0].outcome == Failed(MarkerWriteFault) then [[]] + Written(cs[1..])
    else Written(cs[1..])
  }

  /** No link is posted while the marker reads as it: every post is of a link other than
      what the marker read before it (the starting marker, for the first), and a value
      written reads back newline-translated. The marker left reads as the last value
      written, and is the starting one when nothing was written. */
  predicate NoRepeats(start: Store, ws: seq<string>, final: Store) {
    && (ws == [] ==> final == start)
    && (ws != [] ==> ReadMarker(final) == Newlines(ws[|ws| - 1]))
    && (ws != [] && ws[0] != [] ==> ws[0] != ReadMarker(start))
    && (forall i :: 0 < i < |ws| && ws[i] != [] ==> ws[i] != Newlines(ws[i - 1]))
  }

  /** Without carriage returns in the links, a link is posted twice in a row only when an
      emptied marker came between, and the marker left reads as the last value written. */
  lemma NoRepeatsPlain(start: Store, ws: seq<string>, final: Store)
    requires NoRepeats(start, ws, final)
    requires forall i :: 0 <= i < |ws| ==> '\r' !in ws[i]
    ensures ws != [] ==> ReadMarker(final) == ws[|ws| - 1]
    ensures forall i :: 0 < i < |ws| && ws[i] != [] ==> ws[i] != ws[i - 1]
  {
    forall i | 0 <= i < |ws| {
      NewlinesPlain(ws[i]);
    }
  }

  lemma {:induction false} RunNoRepeat(p: Poster, st: Store, ticks: seq<Tick>)
    ensures var r := RunLoop(p, st, ticks); NoRepeats(st, Written(r.cycles), r.store)
    decreases |ticks|
  {
    if ticks != [] && !ticks[0].stop {
      var c := RunCycle(p, st, ticks[0].world);
      var rest := RunLoop(p, c.store, ticks[1..]);
      RunNoRepeat(p, c.store, ticks[1..]);
      CycleMarker(p, st, ticks[0].world);
      NoRepeatsCons(st, c, rest.cycles, rest.store);
    }
  }

  /** What one cycle does to the marker: a post records a link other than the old marker,
      a failed write empties it, anything else leaves the store alone. */
  lemma CycleMarker(p: Poster, st: Store, w: World)
    ensures var c := RunCycle(p, st, w);
      && (c.outcome.Posted? ==> c.outcome.link != ReadMarker(st) && ReadMarker(c.store) == Newlines(c.outcome.link))
      && (c.outcome == Failed(MarkerWriteFault) ==> ReadMarker(c.store) == [])
      && (!c.outcome.Posted? && c.outcome != Failed(MarkerWriteFault) ==> c.store == st)
  {
    var c := RunCycle(p, st, w);
    if c.outcome.Posted? {
      StripKeeps(c.outcome.link);
    }
  }

  lemma NoRepeatsCons(st: Store, c: Cycle, cs: seq<Cycle>, final: Store)
    requires c.outcome.Posted? ==> c.outcome.link != ReadMarker(st) && ReadMarker(c.store) == Newlines(c.outcome.link)
    requires c.outcome == Failed(MarkerWriteFault) ==> ReadMarker(c.store) == []
    requires !c.outcome.Posted? && c.outcome != Failed(MarkerWriteFault) ==> c.store == st
    requires NoRepeats(c.store, Written(cs), final)
    ensures NoRepeats(st, Written([c] + cs), final)
  {
    assert ([c] + cs)[1..] == cs;
    var ws := Written(cs);
    if c.outcome.Posted? || c.outcome == Failed(MarkerWriteFault) {
      var v := if c.outcome.Posted? then c.outcome.link else [];
      var vs := [v] + ws;
      assert Written([c] + cs) == vs;
      assert forall i :: 0 < i < |vs| ==> vs[i] == ws[i - 1];
    }
  }

  /** `bot_loop(username, password, rss_url)`: a login that raises ends the bot before any
      cycle; so does a failure to create the image directory (app.py:257), which lies
      outside the loop's `try` and ends the thread without a further log line; otherwise
      the loop runs with a logged-in poster. */
  function BotLoop(login: Option<LoginFailure>, imagesDirOk: bool, st: Store, ticks: seq<Tick>): (r: Run)
    ensures login.Some? ==> r.cycles == [] && r.store == st && !r.stopped
    ensures login.Some? ==> r.logs == [LoginStarted, LoginAborted(login.value)]
    ensures login.None? && !imagesDirOk ==>
      r.cycles == [] && r.store == st && !r.stopped && r.logs == [LoginStarted, LoginDone]
    ensures login.None? && imagesDirOk ==> r.cycles == RunLoop(Poster(true), st, ticks).cycles
    ensures login.None? && imagesDirOk ==> r.store == RunLoop(Poster(true), st, ticks).store
    ensures forall i :: 0 <= i < |r.cycles| ==> r.cycles[i].outcome != Failed(NotLoggedIn)
  {
    var a := Login(NewPoster(), login);
    match a.failure
    case Some(f) => Run(st, [], false, a.logs + [LoginAborted(f)])
    case None =>
      if !imagesDirOk then Run(st, [], false, a.logs)
      else
        var run := RunLoop(a.poster, st, ticks);
        RunLoggedIn(st, ticks);
        Run(run.store, run.cycles, run.stopped, a.logs + run.logs)
  }

  /** No cycle of `cs` failed for want of a login. */
  predicate NeverLoggedOut(cs: seq<Cycle>) {
    forall i :: 0 <= i < |cs| ==> cs[i].outcome != Failed(NotLoggedIn)
  }

  /** With a logged-in poster no cycle fails for want of a login. */
  lemma {:induction false} RunLoggedIn(st: Store, ticks: seq<Tick>)
    ensures NeverLoggedOut(RunLoop(Poster(true), st, ticks).cycles)
    decreases |ticks|
  {
    if ticks != [] && !ticks[0].stop {
      var c := RunCycle(Poster(true), st, ticks[0].world);
      var rest := RunLoop(Poster(true), c.store, ticks[1..]);
      RunLoggedIn(c.store, ticks[1..]);
      var cs := [c] + rest.cycles;
      assert forall i :: 0 < i < |cs| ==> cs[i] == rest.cycles[i - 1];
    }
  }

  /** Everything goes right for a new entry: the cycle posts its link and the marker then
      reads as that link. */
  lemma PostsNewEntry(st: Store, w: World, e: FeedEntry)
    requires w.feed == Success(Some(e))
    requires LinkOf(e) != [] && TitleOf(e, w.getText) != []
    requires MarkerReads(st, w) && LinkOf(e) != ReadMarker(st)
    requires FeaturedImageUrl(w.og) != [] && w.downloadOk && w.upload.None? && w.markerWrite == WriteOk
    ensures var c := RunCycle(Poster(true), st, w);
      && c.outcome.Posted? && c.outcome.link == LinkOf(e)
      && ReadMarker(c.store) == Newlines(LinkOf(e))
      && ('\r' !in LinkOf(e) ==> ReadMarker(c.store) == LinkOf(e))
  {
    var c := RunCycle(Poster(true), st, w);
    CycleMarker(Poster(true), st, w);
    NewlinesPlain(LinkOf(e));
  }

  /** The cycle after a post of a link without a carriage return, meeting the same entry
      again, only reads the feed and the marker and sleeps. */
  lemma SecondSightingIsQuiet(p: Poster, st: Store, w: World, w': World)
    requires w'.feed == w.feed && w'.getText == w.getText && w'.markerReadable
    ensures var c := RunCycle(p, st, w);
      c.outcome.Posted? && '\r' !in c.outcome.link ==>
        && RunCycle(p, c.store, w').outcome == AlreadyPosted
        && RunCycle(p, c.store, w').calls == [FetchFeed, ReadLast, Sleep]
        && RunCycle(p, c.store, w').store == c.store
  {
    var c := RunCycle(p, st, w);
    CycleMarker(p, st, w);
    if c.outcome.Posted? {
      NewlinesPlain(c.outcome.link);
    }
  }

  /** A post of a link holding a carriage return is not recognised on the next cycle: the
      marker reads back with `"\n"` in its place, so the same entry, in the same world, is
      uploaded and posted again. */
  lemma CarriageReturnReposts(p: Poster, st: Store, w: World)
    ensures var c := RunCycle(p, st, w);
      c.outcome.Posted? && '\r' in c.outcome.link && w.markerReadable ==>
        && RunCycle(p, c.store, w).outcome.Posted?
        && Upload(c.outcome.caption) in RunCycle(p, c.store, w).calls
  {
    var c := RunCycle(p, st, w);
    if c.outcome.Posted? && '\r' in c.outcome.link && w.markerReadable {
      CycleMarker(p, st, w);
      PostsEntryLink(p, st, w);
      var e := w.feed.value.value;
      assert ReadMarker(c.store) != c.outcome.link;
      PostsAgain(p, st, c.store, w, e);
    }
  }

  /** Whether a cycle posts does not depend on the marker, once the entry's link differs
      from what the marker reads. */
  lemma PostsAgain(p: Poster, st: Store, st2: Store, w: World, e: FeedEntry)
    requires w.feed == Success(Some(e))
    requires MarkerReads(st2, w) && LinkOf(e) != ReadMarker(st2)
    ensures RunCycle(p, st, w).outcome.Posted? ==> RunCycle(p, st2, w).outcome.Posted?
  {
    var c := RunCycle(p, st, w);
    if c.outcome.Posted? {
      var link := LinkOf(e);
      var title := TitleOf(e, w.getText);
      assert Upload(c.outcome.caption) in c.calls;
      assert FeaturedImageUrl(w.og) != [];
      assert RunCycle(p, st2, w) == Fetch(p, st2, w, e, link, title);
    }
  }

  /** Cycle `b` is cycle `a` met again with a marker file that can be read and written: if `a`
      uploaded and then failed to record the link, `b` uploads again and records it. */
  predicate Retried(a: Cycle, b: Cycle) {
    (a.outcome == Failed(MarkerOpenFault) || a.outcome == Failed(MarkerWriteFault)) ==>
      && (exists i :: 0 <= i < |a.calls| && a.calls[i].Upload?)
      && b.outcome.Posted?
  }

  /** When the marker cannot be saved after an upload, the marker is left as it was (the
      file could not be opened) or empty (the write failed), and the next cycle meeting the
      same entry, with a marker file that can be read and written, uploads it again: the marker records a post only once it is saved. */
  lemma RepostAfterWriteFailure(p: Poster, st: Store, w: World)
    ensures var c := RunCycle(p, st, w);
      && (c.outcome == Failed(MarkerOpenFault) ==> c.store == st)
      && (c.outcome == Failed(MarkerWriteFault) ==> ReadMarker(c.store) == [])
      && Retried(c, RunCycle(p, c.store, w.(markerWrite := WriteOk, markerReadable := true)))
  {
    var w' := w.(markerWrite := WriteOk, markerReadable := true);
    var c := RunCycle(p, st, w);
    if w.feed.Success? && w.feed.value.Some? {
      var e := w.feed.value.value;
      var link := LinkOf(e);
      var title := TitleOf(e, w.getText);
      if link != [] && title != [] && MarkerReads(st, w) && link != ReadMarker(st) {
        var img := FeaturedImageUrl(w.og);
        if img != [] {
          var d := DraftOf(w, e, title);
          assert DraftOf(w', e, title) == d;
          assert c == Prepare(p, st, w, link, title, img, d);
          PrepareRetried(p, st, c.store, w, link, title, img, d);
          if c.outcome == Failed(MarkerOpenFault) || c.outcome == Failed(MarkerWriteFault) {
            assert link != ReadMarker(c.store);
            assert RunCycle(p, c.store, w') == Prepare(p, c.store, w', link, title, img, d);
          }
        }
      }
    }
  }

  lemma PrepareRetried(p: Poster, st: Store, st2: Store, w: World, link: string, title: string, img: string, d: Draft)
    requires img == FeaturedImageUrl(w.og) && img != [] && |d.caption| <= CaptionLimit
    ensures Retried(Prepare(p, st, w, link, title, img, d),
                    Prepare(p, st2, w.(markerWrite := WriteOk, markerReadable := true), link, title, img, d))
  {
    var c := Prepare(p, st, w, link, title, img, d);
    if c.outcome == Failed(MarkerOpenFault) || c.outcome == Failed(MarkerWriteFault) {
      var calls := [FetchFeed, ReadLast, FetchImage(link), FetchArticle(link), Download(img)];
      var logs := [ExcerptLength(|d.excerpt|)];
      PublishRetried(p, st, st2, w, link, title, d.caption, calls, logs);
    }
  }

  lemma PublishRetried(p: Poster, st: Store, st2: Store, w: World, link: string, title: string, caption: string,
                       calls: seq<Call>, logs: seq<LogEvent>)
    requires |caption| <= CaptionLimit && w.downloadOk && FeaturedImageUrl(w.og) != []
    requires |calls| > 0 && calls[|calls| - 1].Download? && Sleep !in calls
    requires forall i :: 0 <= i < |calls| ==> !calls[i].Upload?
    ensures Retried(Publish(p, st, w, link, title, caption, calls, logs),
                    Publish(p, st2, w.(markerWrite := WriteOk, markerReadable := true), link, title, caption, calls, logs))
  {
    var c := Publish(p, st, w, link, title, caption, calls, logs);
    if c.outcome == Failed(MarkerOpenFault) || c.outcome == Failed(MarkerWriteFault) {
      assert c.calls[|calls|] == Upload(caption);
    }
  }

  /** A concrete run: an empty marker, then the entry "Storm hits region" at
      `https://site/a`, with every outside call succeeding, is posted and recorded; the next
      cycle meeting it again makes no image, download or upload call. */
  lemma StormScenario(w: World, w': World)
    requires w.feed == Success(Some(FeedEntry("https://site/a", "Storm hits region", [], None)))
    requires w.getText("Storm hits region") == "Storm hits region"
    requires FeaturedImageUrl(w.og) != [] && w.downloadOk
    requires w.upload.None? && w.markerWrite == WriteOk
    requires w'.feed == w.feed && w'.getText == w.getText && w'.markerReadable
    ensures var c := RunCycle(Poster(true), Store(None), w);
      && c.outcome.Posted? && c.outcome.link == "https://site/a"
      && ReadMarker(c.store) == "https://site/a"
      && RunCycle(Poster(true), c.store, w').calls == [FetchFeed, ReadLast, Sleep]
  {
    var e := FeedEntry("https://site/a", "Storm hits region", [], None);
    assert NoEdgeSpace(e.link) && NoEdgeSpace(e.title);
    StripKeeps(e.link);
    StripKeeps(e.title);
    assert '\r' !in LinkOf(e);
    CollapseNonEmpty(e.title, 0);
    PostsNewEntry(Store(None), w, e);
    SecondSightingIsQuiet(Poster(true), Store(None), w, w');
  }
}

=== FILE: caption.dfy ===
/** The caption clamp `clamp_caption` (app.py:81-85) and the excerpt cut shared by
    `get_article_excerpt` and `get_excerpt_from_feed_entry` (app.py:178-179, 200-201). */
module Caption {
  import opened Seqs
  import opened Text

  /** The one-character ellipsis U+2026 that every cut appends. */
  const Ellipsis: string := "\U{2026}"

  /** `r` is what cutting `t` to `n` characters yields: the first `n` characters of `t`
      (Python's `t[:n]`) with their trailing whitespace removed, then `Ellipsis`. */
  predicate IsCutOf(r: string, t: string, n: int) {
    && |r| >= |Ellipsis| && r[|r| - |Ellipsis|..] == Ellipsis
    && var body := r[..|r| - |Ellipsis|];
       var head := SliceTo(t, n);
       && body <= head
       && (body == [] || !IsSpace(body[|body| - 1]))
       && AllMatch(head[|body|..], Space, true)
  }

  /** `t[:n].rstrip() + "…"`. */
  function Cut(t: string, n: int): (r: string)
    ensures IsCutOf(r, t, n)
  {
    var head := SliceTo(t, n);
    var body := RStrip(head);
    RStripPrefix(head);
    RStripRemoved(head);
    assert (body + Ellipsis)[..|body|] == body;
    body + Ellipsis
  }

  /** A prefix of `head` that ends in a non-space cannot reach past a point after which
      `head` holds only whitespace. */
  lemma TrimmedWithin(body: string, head: string, n: nat)
    requires body <= head && n <= |head|
    requires body == [] || !IsSpace(body[|body| - 1])
    requires AllMatch(head[n..], Space, true)
    ensures |body| <= n
  {
  }

  /** `IsCutOf` pins the result down: `Cut` is the only cut. */
  lemma CutUnique(r: string, t: string, n: int)
    requires IsCutOf(r, t, n)
    ensures r == Cut(t, n)
  {
    var c := Cut(t, n);
    var b1 := r[..|r| - 1];
    var b2 := c[..|c| - 1];
    var head := SliceTo(t, n);
    TrimmedWithin(b1, head, |b2|);
    TrimmedWithin(b2, head, |b1|);
    assert b1 == b2;
    assert r == b1 + Ellipsis;
    assert c == b2 + Ellipsis;
  }

  /** A cut is at most `n` characters of body plus the ellipsis, and the body is a prefix of
      the text that does not end in whitespace. */
  lemma CutBounds(r: string, t: string, n: int)
    requires IsCutOf(r, t, n)
    ensures r[..|r| - |Ellipsis|] <= t
    ensures n >= 0 ==> |r| <= n + |Ellipsis|
    ensures NoEdgeSpace(t) ==> NoEdgeSpace(r)
  {
    var body := r[..|r| - 1];
    assert body <= SliceTo(t, n);
    if body != [] && NoEdgeSpace(t) {
      assert r[0] == body[0] == t[0];
    }
  }

  /** `clamp_caption(caption, max_len)` (app.py:81-85): the stripped caption when it fits in
      `maxLen` characters, its cut to `maxLen - 1` characters otherwise. */
  function ClampCaption(caption: string, maxLen: int): (r: string)
    ensures |Strip(caption)| <= maxLen ==> r == Strip(caption)
    ensures |Strip(caption)| > maxLen ==> IsCutOf(r, Strip(caption), maxLen - 1)
    ensures maxLen >= 1 ==> |r| <= maxLen
    ensures NoEdgeSpace(r)
  {
    var c := Strip(caption);
    if |c| <= maxLen then c
    else
      var r := Cut(c, maxLen - 1);
      CutBounds(r, c, maxLen - 1);
      r
  }

  /** Clamping a clamped caption changes nothing. */
  lemma ClampIdempotent(caption: string, maxLen: int)
    requires maxLen >= 1
    ensures ClampCaption(ClampCaption(caption, maxLen), maxLen) == ClampCaption(caption, maxLen)
  {
    var r := ClampCaption(caption, maxLen);
    StripKeeps(r);
  }

  /** A caption that needs no clamping, after stripping, is returned as it is. */
  lemma ClampKeepsShort(caption: string, maxLen: int)
    requires NoEdgeSpace(caption) && |caption| <= maxLen
    ensures ClampCaption(caption, maxLen) == caption
  {
    StripKeeps(caption);
  }

  /** The excerpt cut of app.py:178-179 and app.py:200-201: `text` itself when it has at
      most `maxChars` characters, its cut to `maxChars` characters otherwise. */
  function TruncateExcerpt(text: string, maxChars: int): (r: string)
    ensures |text| <= maxChars ==> r == text
    ensures |text| > maxChars ==> IsCutOf(r, text, maxChars)
    ensures maxChars >= 0 ==> |r| <= maxChars + |Ellipsis|
    ensures NoEdgeSpace(text) ==> NoEdgeSpace(r)
  {
    if |text| > maxChars then
      var r := Cut(text, maxChars);
      CutBounds(r, text, maxChars);
      r
    else text
  }
}

=== FILE: control.dfy ===
/** The control panel's decisions (app.py:47-51, 413-457): `/save` stores the form, `/start`
    resolves credentials and starts at most one worker, `/stop` raises the stop flag.
    The configuration file holds a JSON object of strings, modelled as a map. */
module Control {
  import opened Wrappers
  import opened Text
  import opened Events
  import LogBuffer

  /** The feed used when none is configured. */
  const DefaultRss: string := "https://www.montagneepaesi.com/feed/"

  type Config = map<string, string>

  /** Form fields as posted; a missing field is a missing key. */
  type Form = map<string, string>

  /** The configuration `load_config` returns when there is no file. */
  function DefaultConfig(): (r: Config)
    ensures r.Keys == {"rss_url", "username", "password"}
    ensures r["rss_url"] == DefaultRss && r["username"] == [] && r["password"] == []
  {
    map["rss_url" := DefaultRss, "username" := [], "password" := []]
  }

  /** `load_config()`: the file's object, or the default configuration without a file. */
  function LoadConfig(file: Option<Config>): (r: Config)
    ensures file.Some? ==> r == file.value
    ensures file.None? ==> r == DefaultConfig()
  {
    file.GetOr(DefaultConfig())
  }

  /** Python's `d.get(key, default)`. */
  function Get(m: map<string, string>, key: string, default: string): (r: string)
    ensures key in m ==> r == m[key]
    ensures key !in m ==> r == default
  {
    if key in m then m[key] else default
  }

  /** Python's `a or b` on strings: `a` unless it is empty. */
  function OrElse(a: string, b: string): (r: string)
    ensures a != [] ==> r == a
    ensures a == [] ==> r == b
  {
    if a != [] then a else b
  }

  /** The panel's state: the configuration file, the stop flag, whether a worker thread is
      alive, and the log. */
  datatype Panel = Panel(config: Option<Config>, stopFlag: bool, workerAlive: bool, logs: seq<LogEvent>)

  function Log(p: Panel, e: LogEvent): (r: Panel)
    ensures r == p.(logs := LogBuffer.Append(p.logs, e))
  {
    p.(logs := LogBuffer.Append(p.logs, e))
  }

  /** `c` is `cfg` with the three bot settings replaced and every other key kept. */
  predicate Updates(c: Config, cfg: Config, username: string, password: string, rss: string) {
    && "username" in c && c["username"] == username
    && "password" in c && c["password"] == password
    && "rss_url" in c && c["rss_url"] == rss
    && (forall k :: k in cfg && k != "username" && k != "password" && k != "rss_url" ==> k in c && c[k] == cfg[k])
    && (forall k :: k in c ==> k in cfg || k == "username" || k == "password" || k == "rss_url")
  }

  function SetBot(cfg: Config, username: string, password: string, rss: string): (r: Config)
    ensures Updates(r, cfg, username, password, rss)
  {
    cfg["username" := username]["password" := password]["rss_url" := rss]
  }

  /** `/save` (app.py:413-421): the stripped form fields become the configuration; an empty
      feed URL becomes the default one. */
  function Save(p: Panel, form: Form): (r: Panel)
    ensures r.config.Some?
    ensures Updates(r.config.value, LoadConfig(p.config),
                    Strip(Get(form, "username", [])), Strip(Get(form, "password", [])),
                    OrElse(Strip(Get(form, "rss_url", [])), DefaultRss))
    ensures r.config.value["rss_url"] != []
    ensures r.stopFlag == p.stopFlag && r.workerAlive == p.workerAlive
    ensures r.logs == LogBuffer.Append(p.logs, ConfigSaved)
  {
    var cfg := LoadConfig(p.config);
    var c := SetBot(cfg, Strip(Get(form, "username", [])), Strip(Get(form, "password", [])),
                    OrElse(Strip(Get(form, "rss_url", [])), DefaultRss));
    Log(p.(config := Some(c)), ConfigSaved)
  }

  datatype StartOutcome =
    | Refused                                            // credentials missing
    | Busy                                               // a worker is alive
    | Spawned(username: string, password: string, rss: string)

  datatype StartResult = StartResult(panel: Panel, outcome: StartOutcome)

  /** `v` is the form's value when that is non-empty after stripping, `fallback` otherwise. */
  predicate FormFirst(v: string, form: Form, key: string, fallback: string) {
    var f := Strip(Get(form, key, []));
    (f != [] ==> v == f) && (f == [] ==> v == fallback)
  }

  /** A credential as `/start` resolves it (app.py:428-429), `key` being `"username"` or
      `"password"`. */
  function StartCredential(form: Form, cfg: Config, key: string): (r: string)
    ensures FormFirst(r, form, key, Strip(Get(cfg, key, [])))
  {
    OrElse(Strip(Get(form, key, [])), Strip(Get(cfg, key, [])))
  }

  /** The feed URL as `/start` resolves it (app.py:430): the configured one is not stripped. */
  function StartRss(form: Form, cfg: Config): (r: string)
    ensures FormFirst(r, form, "rss_url", Get(cfg, "rss_url", DefaultRss))
  {
    OrElse(Strip(Get(form, "rss_url", [])), Get(cfg, "rss_url", DefaultRss))
  }

  /** `/start` (app.py:423-451). */
  function Start(p: Panel, form: Form): (r: StartResult)
    ensures var cfg := LoadConfig(p.config);
      var u := StartCredential(form, cfg, "username");
      var pw := StartCredential(form, cfg, "password");
      var rss := StartRss(form, cfg);
      && (r.outcome == Refused <==> u == [] || pw == [])
      && (r.outcome == Refused ==> r.panel == Log(p, CredentialsMissing))
      && (r.outcome != Refused ==> r.panel.config.Some? && Updates(r.panel.config.value, cfg, u, pw, rss))
      && (r.outcome.Spawned? ==> r.outcome == Spawned(u, pw, rss) && u != [] && pw != [])
    ensures p.workerAlive ==> !r.outcome.Spawned?
    ensures r.outcome.Spawned? <==> !p.workerAlive && r.outcome != Refused
    ensures r.outcome.Spawned? ==> r.panel.workerAlive && !r.panel.stopFlag
    ensures !r.outcome.Spawned? ==> r.panel.stopFlag == p.stopFlag && r.panel.workerAlive == p.workerAlive
  {
    var cfg := LoadConfig(p.config);
    var u := StartCredential(form, cfg, "username");
    var pw := StartCredential(form, cfg, "password");
    var rss := StartRss(form, cfg);
    if u == [] || pw == [] then
      StartResult(Log(p, CredentialsMissing), Refused)
    else
      var saved := p.(config := Some(SetBot(cfg, u, pw, rss)));
      if p.workerAlive then
        StartResult(Log(saved, LogEvent.AlreadyRunning), Busy)
      else
        StartResult(Log(saved.(stopFlag := false, workerAlive := true), BotStarted), Spawned(u, pw, rss))
  }

  /** `/stop` (app.py:453-457): the flag is raised and nothing else changes but the log. */
  function Stop(p: Panel): (r: Panel)
    ensures r.stopFlag
    ensures r.config == p.config && r.workerAlive == p.workerAlive
    ensures r.logs == LogBuffer.Append(p.logs, StopRequested)
  {
    Log(p.(stopFlag := true), StopRequested)
  }

  /** Stopping twice leaves the same state as stopping once, but for one more log line. */
  lemma StopIdempotent(p: Panel)
    ensures Stop(Stop(p)).(logs := []) == Stop(p).(logs := [])
  {
  }

  /** A second `/start` while the first worker is alive starts nothing. */
  lemma StartTwice(p: Panel, form: Form, form': Form)
    requires Start(p, form).outcome.Spawned?
    ensures !Start(Start(p, form).panel, form').outcome.Spawned?
  {
  }

  /** After `/save` with both credentials, `/start` with an empty form starts the worker with
      exactly the saved values. */
  lemma SaveThenStart(p: Panel, form: Form)
    requires Strip(Get(form, "username", [])) != [] && Strip(Get(form, "password", [])) != []
    requires !p.workerAlive
    ensures var q := Save(p, form);
      Start(q, map[]).outcome ==
        Spawned(Strip(Get(form, "username", [])), Strip(Get(form, "password", [])),
                OrElse(Strip(Get(form, "rss_url", [])), DefaultRss))
  {
    var q := Save(p, form);
    StripIdempotent(Get(form, "username", []));
    StripIdempotent(Get(form, "password", []));
    assert Strip(Get(map[], "username", [])) == [] by { StripKeeps([]); }
  }
}

=== FILE: events.dfy ===
/** The messages the bot and its control panel log, one constructor per message of app.py;
    the Italian wording and the timestamp are not modelled. */
module Events {

  /** Why a cycle ended in the error handler of app.py:313-314. */
  datatype Fault =
    | FeedFault(msg: string)        // the feed could not be read
    | MarkerReadFault               // the marker file could not be read
    | NotLoggedIn                   // `post_photo` raised `LoginRequired`
    | UploadFault(msg: string)      // the upload raised
    | MarkerOpenFault               // creating or opening the marker file raised
    | MarkerWriteFault              // writing the opened, so emptied, marker file raised

  /** Why the login of app.py:245-255 failed. */
  datatype LoginFailure =
    | TwoFactorRequired
    | ChallengeRequired
    | LoginError(msg: string)

  datatype LogEvent =
    | LoginStarted                  // app.py:225
    | LoginDone                     // app.py:228
    | LoginAborted(why: LoginFailure) // app.py:248, 251, 254
    | NoArticles                    // app.py:263
    | IncompleteEntry               // app.py:271
    | NothingNew                    // app.py:277
    | ImageNotFound                 // app.py:283
    | ExcerptLength(n: nat)         // app.py:291
    | DownloadFailed                // app.py:305
    | Publishing(title: string)     // app.py:309
    | Uploading                     // app.py:236
    | Uploaded                      // app.py:238
    | CycleError(fault: Fault)      // app.py:314
    | BotStopped                    // app.py:318
    | ConfigSaved                   // app.py:420
    | CredentialsMissing            // app.py:433
    | AlreadyRunning                // app.py:444
    | BotStarted                    // app.py:450
    | StopRequested                 // app.py:456
}

=== FILE: excerpt.dfy ===
/** Text extraction: `clean_text` (app.py:73-78), the og:image lookup (app.py:112-124), the
    paragraph selection and cut of `get_article_excerpt` (app.py:127-182) and the feed
    fallback `get_excerpt_from_feed_entry` (app.py:185-204). HTML parsing is an oracle
    `getText` standing for BeautifulSoup's `get_text(" ", strip=True)`. */
module Excerpt {
  import opened Wrappers
  import opened Seqs
  import opened Text
  import opened Words
  import opened Caption

  /** The default excerpt length (`max_chars`). */
  const MaxChars: int := 900

  /** The promotional sentence whose paragraphs are dropped, lower-cased. */
  const PromoPhrase: string := "vuoi ricevere le notizie di montagne"

  /** The start of the WhatsApp channel link whose paragraphs are dropped, lower-cased. */
  const ChannelLink: string := "whatsapp.com/channel/0029vb7fc"

  /** `clean_text(s)`: empty text stays empty; otherwise the text of the markup with every
      whitespace run made one space and the ends stripped. */
  function CleanText(s: string, getText: string -> string): (r: string)
    ensures s == [] ==> r == []
    ensures s != [] ==> r == Join(" ", Split(getText(s)))
    ensures NoEdgeSpace(r)
  {
    if s == [] then []
    else
      CollapseIsJoinSplit(getText(s));
      Collapse(getText(s))
  }

  /** `get_featured_image_url`: the stripped `content` of the og:image meta tag, or `""` when
      the page could not be fetched, has no such tag, or the tag's content is empty.
      `og` is `None` in the first two cases. */
  function FeaturedImageUrl(og: Option<string>): (r: string)
    ensures r == Strip(og.GetOr([]))
    ensures og.None? ==> r == []
  {
    if og.Some? && og.value != [] then Strip(og.value) else []
  }

  /** `s.replace(" ", "")`: every blank removed, everything else kept in order. */
  function RemoveBlanks(s: string): (r: string)
    ensures |r| <= |s|
    ensures forall i :: 0 <= i < |r| ==> r[i] != ' '
    decreases |s|
  {
    if s == [] then []
    else if s[0] == ' ' then RemoveBlanks(s[1..])
    else [s[0]] + RemoveBlanks(s[1..])
  }

  /** A single character is dropped when it is a blank and kept otherwise. */
  lemma RemoveBlanksOne(c: char)
    ensures RemoveBlanks([c]) == if c == ' ' then [] else [c]
  {
    assert [c][1..] == [];
  }

  /** Removing blanks distributes over concatenation: every other character is kept, in
      order. */
  lemma {:induction false} RemoveBlanksAppend(a: string, c: string)
    ensures RemoveBlanks(a + c) == RemoveBlanks(a) + RemoveBlanks(c)
    decreases |a|
  {
    if a == [] {
      assert a + c == c;
    } else {
      assert (a + c)[0] == a[0];
      assert (a + c)[1..] == a[1..] + c;
      RemoveBlanksAppend(a[1..], c);
    }
  }

  /** A paragraph `t` that `get_article_excerpt` keeps (app.py:162-172): non-empty, not the
      promotional sentence, not the channel link, at least 25 characters. */
  predicate KeepParagraph(t: string) {
    && t != []
    && !Contains(Lower(t), PromoPhrase)
    && !Contains(RemoveBlanks(Lower(t)), ChannelLink)
    && |t| >= 25
  }

  /** The paragraphs kept, in page order. */
  function SelectParagraphs(ps: seq<string>): (r: seq<string>)
    ensures |r| <= |ps|
    ensures forall i :: 0 <= i < |r| ==> KeepParagraph(r[i])
    decreases |ps|
  {
    if ps == [] then []
    else if KeepParagraph(ps[0]) then [ps[0]] + SelectParagraphs(ps[1..])
    else SelectParagraphs(ps[1..])
  }

  /** Each paragraph is kept exactly when it passes `KeepParagraph`. */
  lemma SelectOne(p: string)
    ensures SelectParagraphs([p]) == if KeepParagraph(p) then [p] else []
  {
    assert [p][1..] == [];
  }

  /** Selection distributes over concatenation: kept paragraphs stay in page order. */
  lemma {:induction false} SelectAppend(a: seq<string>, c: seq<string>)
    ensures SelectParagraphs(a + c) == SelectParagraphs(a) + SelectParagraphs(c)
    decreases |a|
  {
    if a == [] {
      assert a + c == c;
    } else {
      assert (a + c)[0] == a[0];
      assert (a + c)[1..] == a[1..] + c;
      SelectAppend(a[1..], c);
    }
  }

  /** `r` is the excerpt of the cleaned `text`: the text itself when it fits in `maxChars`
      characters, its cut otherwise. */
  predicate IsExcerptOf(r: string, text: string, maxChars: int) {
    && (|text| <= maxChars ==> r == text)
    && (|text| > maxChars ==> IsCutOf(r, text, maxChars))
  }

  /** The final step of both excerpt functions: empty stays empty, anything else is cut. */
  function Shorten(text: string, maxChars: int): (r: string)
    requires NoEdgeSpace(text)
    ensures text != [] ==> IsExcerptOf(r, text, maxChars)
    ensures text == [] ==> r == []
    ensures maxChars >= 0 ==> |r| <= maxChars + |Ellipsis|
    ensures NoEdgeSpace(r)
  {
    if text == [] then [] else TruncateExcerpt(text, maxChars)
  }

  /** What the article page offers `get_article_excerpt`: `None` when the page cannot be
      fetched or has no content container, otherwise the texts of its `p` and `li` elements
      in page order, after the promotional boxes are removed. */
  type ArticlePage = Option<seq<string>>

  /** `get_article_excerpt(url, max_chars)`. */
  function ArticleExcerpt(page: ArticlePage, maxChars: int, getText: string -> string): (r: string)
    ensures page.None? ==> r == []
    ensures page.Some? ==>
      var text := CleanText(Join(" ", SelectParagraphs(page.value)), getText);
      && (text != [] ==> IsExcerptOf(r, text, maxChars))
      && (text == [] ==> r == [])
    ensures maxChars >= 0 ==> |r| <= maxChars + |Ellipsis|
    ensures NoEdgeSpace(r)
  {
    match page
    case None => []
    case Some(ps) => Shorten(CleanText(Join(" ", SelectParagraphs(ps)), getText), maxChars)
  }

  /** A feed entry, as far as the bot reads it. A missing `link` or `title` reads as `""`,
      a missing `content` as no content, a missing `summary` as `None`. An entry with no
      keys at all (an empty `<item/>`) is falsy, so app.py:262 treats it as no entry: the
      feed reading gives `None` for it, never a `FeedEntry` with every field missing. */
  datatype FeedEntry = FeedEntry(link: string, title: string, content: seq<string>, summary: Option<string>)

  /** The feed text (app.py:190-194): the first content value when there is one and it is
      non-empty, otherwise the summary, otherwise `""`. */
  function FeedText(e: FeedEntry): (r: string)
    ensures |e.content| > 0 && e.content[0] != [] ==> r == e.content[0]
    ensures !(|e.content| > 0 && e.content[0] != []) ==> r == e.summary.GetOr([])
  {
    var txt := if |e.content| > 0 then e.content[0] else [];
    if txt == [] && e.summary.Some? then e.summary.value else txt
  }

  /** `get_excerpt_from_feed_entry(entry, max_chars)`. */
  function FeedExcerpt(e: FeedEntry, maxChars: int, getText: string -> string): (r: string)
    ensures var text := CleanText(FeedText(e), getText);
      text != [] ==> IsExcerptOf(r, text, maxChars)
    ensures CleanText(FeedText(e), getText) == [] ==> r == []
    ensures maxChars >= 0 ==> |r| <= maxChars + |Ellipsis|
    ensures NoEdgeSpace(r)
  {
    Shorten(CleanText(FeedText(e), getText), maxChars)
  }

  /** The excerpt the caption uses (app.py:287-289): the article's when it is non-empty,
      the feed entry's otherwise. */
  function PickExcerpt(page: ArticlePage, e: FeedEntry, getText: string -> string): (r: string)
    ensures ArticleExcerpt(page, MaxChars, getText) != [] ==> r == ArticleExcerpt(page, MaxChars, getText)
    ensures ArticleExcerpt(page, MaxChars, getText) == [] ==> r == FeedExcerpt(e, MaxChars, getText)
    ensures |r| <= MaxChars + |Ellipsis|
    ensures NoEdgeSpace(r)
  {
    var a := ArticleExcerpt(page, MaxChars, getText);
    if a != [] then a else FeedExcerpt(e, MaxChars, getText)
  }
}

=== FILE: hashtags.dfy ===
/** `hashtags_from_title` (app.py:88-101): five fixed tags, then one tag for each long enough,
    non-stopword letter run of the lower-cased title, at most `max_tags` of them. */
module Tags {
  import opened Seqs
  import opened Text
  import opened Words

  /** The Italian articles, prepositions and conjunctions that never become a tag. */
  const Stopwords: set<string> := {
    "di", "a", "da", "in", "con", "su", "per", "tra", "fra", "il", "lo", "la", "i", "gli", "le",
    "un", "una", "uno", "e", "\U{e8}", "del", "della", "dei", "delle", "al", "allo", "alla", "agli",
    "alle", "ai", "dal", "dallo", "dalla", "dai", "dalle", "nel", "nello", "nella", "nei", "nelle"
  }

  /** The tags every caption carries, in this order. */
  const FixedTags: seq<string> := ["#montagneepaesi", "#news", "#notizie", "#ultimora", "#flashnews"]

  /** The default number of title tags. */
  const MaxTags: int := 8

  /** A word that becomes a tag: four characters or more, and not a stopword. */
  predicate Taggable(w: string) {
    |w| >= 4 && w !in Stopwords
  }

  /** `t` is the tag of a taggable word. */
  predicate IsTag(t: string) {
    |t| > 0 && t[0] == '#' && Taggable(t[1..])
  }

  predicate AllTags(ts: seq<string>) {
    forall i :: 0 <= i < |ts| ==> IsTag(ts[i])
  }

  /** Every element of `ws` has no capital letter. */
  predicate AllLower(ws: seq<string>) {
    forall j :: 0 <= j < |ws| ==> NoUpper(ws[j])
  }

  /** `re.findall(r"[a-zA-ZàèéìòùÀÈÉÌÒÙ]+", title.lower())`. */
  function TitleWords(title: string): seq<string>
  {
    Runs(Lower(title), TitleLetter, true)
  }

  /** The loop of app.py:96-98: `"#" + w` for each taggable `w`, in order, repeats kept. */
  function TagsOf(ws: seq<string>): (r: seq<string>)
    ensures |r| <= |ws|
    ensures AllTags(r)
    decreases |ws|
  {
    if ws == [] then []
    else
      var rest := TagsOf(ws[1..]);
      if Taggable(ws[0]) then
        assert ("#" + ws[0])[1..] == ws[0];
        ["#" + ws[0]] + rest
      else rest
  }

  /** Each word contributes its own tag or nothing. */
  lemma TagsOfOne(w: string)
    ensures TagsOf([w]) == if Taggable(w) then ["#" + w] else []
  {
    assert [w][1..] == [];
  }

  /** Tagging distributes over concatenation: tags come in title order. */
  lemma {:induction false} TagsOfAppend(a: seq<string>, c: seq<string>)
    ensures TagsOf(a + c) == TagsOf(a) + TagsOf(c)
    decreases |a|
  {
    if a == [] {
      assert a + c == c;
    } else {
      assert (a + c)[0] == a[0];
      assert (a + c)[1..] == a[1..] + c;
      TagsOfAppend(a[1..], c);
    }
  }

  /** `tags[:max_tags]`: the title tags, at most `maxTags` of them. */
  function TitleTags(title: string, maxTags: int): (r: seq<string>)
    ensures maxTags >= 0 ==> |r| == Min(maxTags, |TagsOf(TitleWords(title))|)
    ensures r <= TagsOf(TitleWords(title))
    ensures AllTags(r)
  {
    var all := TagsOf(TitleWords(title));
    var r := SliceTo(all, maxTags);
    assert forall i :: 0 <= i < |r| ==> r[i] == all[i];
    r
  }

  /** `hashtags_from_title(title, max_tags)`. */
  function Hashtags(title: string, maxTags: int): string
  {
    Join(" ", FixedTags + TitleTags(title, maxTags))
  }

  /** A letter run is not whitespace. */
  lemma LettersAreWord(w: string)
    requires AllMatch(w, TitleLetter, true)
    ensures AllMatch(w, Space, false)
  {
    assert forall i :: 0 <= i < |w| ==> InClass(TitleLetter, w[i]) ==> !IsSpace(w[i]);
  }

  /** The tag of a letter run is a word. */
  lemma TagIsWord(w: string)
    requires AllMatch(w, TitleLetter, true)
    ensures |"#" + w| > 0 && AllMatch("#" + w, Space, false)
  {
    LettersAreWord(w);
    var t := "#" + w;
    assert forall i :: 1 <= i < |t| ==> t[i] == w[i - 1];
  }

  /** The tags of letter runs are words. */
  lemma {:induction false} TagsAreWords(ws: seq<string>)
    requires AllRuns(ws, TitleLetter, true)
    ensures AllWords(TagsOf(ws))
    decreases |ws|
  {
    if ws != [] {
      assert AllRuns(ws[1..], TitleLetter, true);
      TagsAreWords(ws[1..]);
      if Taggable(ws[0]) {
        assert AllMatch(ws[0], TitleLetter, true);
        TagIsWord(ws[0]);
        AllRunsCons("#" + ws[0], TagsOf(ws[1..]), Space, false);
      }
    }
  }

  /** The fixed tags are words. */
  lemma FixedTagsAreWords()
    ensures AllWords(FixedTags)
  {
    assert AllMatch("#montagneepaesi", Space, false);
    assert AllMatch("#news", Space, false);
    assert AllMatch("#notizie", Space, false);
    assert AllMatch("#ultimora", Space, false);
    assert AllMatch("#flashnews", Space, false);
  }

  /** The title tags are words. */
  lemma TitleTagsAreWords(title: string, maxTags: int)
    ensures AllWords(TitleTags(title, maxTags))
  {
    var ws := TitleWords(title);
    RunsShape(Lower(title), TitleLetter, true);
    TagsAreWords(ws);
    var all := TagsOf(ws);
    var r := TitleTags(title, maxTags);
    assert forall i :: 0 <= i < |r| ==> r[i] == all[i];
  }

  lemma AllWordsAppend(a: seq<string>, c: seq<string>)
    requires AllWords(a) && AllWords(c)
    ensures AllWords(a + c)
  {
    assert forall j :: 0 <= j < |a + c| ==> (a + c)[j] == if j < |a| then a[j] else c[j - |a|];
  }

  /** Splitting the hashtag line gives back the fixed tags followed by the title tags. */
  lemma HashtagsSplit(title: string, maxTags: int)
    ensures Split(Hashtags(title, maxTags)) == FixedTags + TitleTags(title, maxTags)
  {
    FixedTagsAreWords();
    TitleTagsAreWords(title, maxTags);
    AllWordsAppend(FixedTags, TitleTags(title, maxTags));
    SplitJoin(FixedTags + TitleTags(title, maxTags));
  }

  /** The hashtag line always begins with the fixed tags, in their order. */
  lemma HashtagsStartFixed(title: string, maxTags: int)
    ensures Join(" ", FixedTags) <= Hashtags(title, maxTags)
  {
    var tags := TitleTags(title, maxTags);
    if tags == [] {
      assert FixedTags + tags == FixedTags;
    } else {
      JoinAppend(" ", FixedTags, tags);
    }
  }

  /** The title words are lower-case runs of title letters that together hold every letter
      of the lower-cased title, in order. */
  lemma TitleWordsShape(title: string)
    ensures AllRuns(TitleWords(title), TitleLetter, true)
    ensures AllLower(TitleWords(title))
    ensures Concat(TitleWords(title)) == Keep(Lower(title), TitleLetter, true)
  {
    RunsContent(Lower(title), TitleLetter, true);
    RunsShape(Lower(title), TitleLetter, true);
    RunsLower(Lower(title), TitleLetter, true);
  }

  lemma NoUpperSlice(s: string, i: int, j: int)
    requires NoUpper(s) && 0 <= i <= j <= |s|
    ensures NoUpper(s[i..j])
  {
    assert forall n :: 0 <= n < j - i ==> s[i..j][n] == s[i + n];
  }

  /** Runs of a text without capitals have no capitals. */
  lemma {:induction false} RunsLower(s: string, k: CharClass, b: bool)
    requires NoUpper(s)
    ensures AllLower(Runs(s, k, b))
    decreases |s|
  {
    var t := DropWhile(s, k, !b);
    if t != [] {
      DropWhileSuffix(s, k, !b);
      NoUpperSlice(s, |s| - |t|, |s|);
      assert s[|s| - |t|..|s|] == t;
      var w := TakeWhile(t, k, b);
      TakeWhilePrefix(t, k, b);
      NoUpperSlice(t, 0, |w|);
      NoUpperSlice(t, |w|, |t|);
      assert t[0..|w|] == w;
      var u := t[|w|..];
      assert t[|w|..|t|] == u;
      RunsStep(s, k, b);
      RunsLower(u, k, b);
      AllLowerCons(w, Runs(u, k, b));
    }
  }

  lemma AllLowerCons(w: string, ws: seq<string>)
    requires NoUpper(w) && AllLower(ws)
    ensures AllLower([w] + ws)
  {
    assert forall j :: 0 <= j < |[w] + ws| ==> ([w] + ws)[j] == if j == 0 then w else ws[j - 1];
  }
}

=== FILE: logbuffer.dfy ===
/** The in-memory log of app.py: `log` (app.py:38-44) appends a line and keeps the most
    recent 400; the `/logs` endpoint (app.py:468) returns `logs[-400:]`. Lines are of any
    type: the timestamp prefix is not modelled. */
module LogBuffer {
  import opened Seqs

  /** How many lines the buffer keeps. */
  const Capacity: nat := 400

  /** The most recent `Capacity` lines of `lines`: Python's `lines[-400:]`. */
  function Recent<T>(lines: seq<T>): (r: seq<T>)
    ensures |r| == Min(Capacity, |lines|)
    ensures r == lines[|lines| - |r|..]
  {
    SliceFrom(lines, -(Capacity as int))
  }

  /** `log(msg)`: append, then trim to the most recent `Capacity` lines when over. */
  function Append<T>(buf: seq<T>, line: T): (r: seq<T>)
    ensures r == Recent(buf + [line])
    ensures |r| == Min(|buf| + 1, Capacity)
    ensures r[|r| - 1] == line
  {
    var b := buf + [line];
    if |b| > Capacity then b[|b| - Capacity..] else b
  }

  /** `log` called once per line, in order. */
  function AppendAll<T>(buf: seq<T>, lines: seq<T>): seq<T>
    decreases |lines|
  {
    if lines == [] then buf else AppendAll(Append(buf, lines[0]), lines[1..])
  }

  lemma RecentOfShort<T>(xs: seq<T>)
    requires |xs| <= Capacity
    ensures Recent(xs) == xs
  {
  }

  /** Logging many lines keeps exactly the most recent `Capacity` of everything logged, in
      the order logged: older lines are dropped first. */
  lemma {:induction false} AppendAllRecent<T>(buf: seq<T>, lines: seq<T>)
    requires |buf| <= Capacity
    ensures AppendAll(buf, lines) == Recent(buf + lines)
    decreases |lines|
  {
    if lines == [] {
      assert buf + lines == buf;
      RecentOfShort(buf);
    } else {
      var xs := buf + [lines[0]];
      var rest := lines[1..];
      var b := Append(buf, lines[0]);
      assert b == Recent(xs);
      AppendAllRecent(b, rest);
      assert AppendAll(buf, lines) == AppendAll(b, rest);
      RecentConcat(xs, rest);
      assert buf + lines == xs + rest;
    }
  }

  /** Trimming a prefix of the log early does not change its most recent lines. */
  lemma RecentConcat<T>(xs: seq<T>, ys: seq<T>)
    ensures Recent(Recent(xs) + ys) == Recent(xs + ys)
  {
    var a := Recent(xs) + ys;
    var b := xs + ys;
    assert |Recent(a)| == |Recent(b)|;
    assert forall i :: 0 <= i < |Recent(a)| ==> Recent(a)[i] == Recent(b)[i];
  }

  /** The buffer never holds more than `Capacity` lines, and `/logs` returns all of it. */
  lemma LogsShowsAll<T>(buf: seq<T>, lines: seq<T>)
    requires |buf| <= Capacity
    ensures |AppendAll(buf, lines)| <= Capacity
    ensures Recent(AppendAll(buf, lines)) == AppendAll(buf, lines)
  {
    AppendAllRecent(buf, lines);
  }

  /** 500 lines logged into an empty buffer leave the last 400, in order. */
  lemma FiveHundredLines<T>(lines: seq<T>)
    requires |lines| == 500
    ensures AppendAll([], lines) == lines[100..]
  {
    AppendAllRecent([], lines);
    assert [] + lines == lines;
  }
}

=== FILE: markerstore.dfy ===
/** The last-posted marker file (app.py:60-70): the link of the last article published. */
module MarkerStore {
  import opened Wrappers
  import opened Text

  /** The marker file's contents, `None` when the file does not exist. */
  datatype Store = Store(file: Option<string>)

  /** What `f.read()` returns for a file opened with `open(path, "r")` (app.py:62): the
      universal-newline mode reads each `"\r\n"` and each lone `"\r"` as one `"\n"`. */
  function Newlines(s: string): (r: string)
    ensures |r| <= |s|
    ensures '\r' !in r
    decreases |s|
  {
    if s == [] then []
    else if s[0] == '\r' then
      if |s| > 1 && s[1] == '\n' then "\n" + Newlines(s[2..]) else "\n" + Newlines(s[1..])
    else [s[0]] + Newlines(s[1..])
  }

  /** Text without a carriage return reads back unchanged. */
  lemma {:induction false} NewlinesPlain(s: string)
    ensures '\r' !in s ==> Newlines(s) == s
    decreases |s|
  {
    if s != [] && '\r' !in s {
      assert '\r' !in s[1..] by {
        assert forall i :: 0 <= i < |s[1..]| ==> s[1..][i] == s[i + 1];
      }
      NewlinesPlain(s[1..]);
    }
  }

  /** The translation keeps a last character other than `'\r'`. */
  lemma {:induction false} NewlinesLast(s: string)
    requires s != [] && s[|s| - 1] != '\r'
    ensures var r := Newlines(s); r != [] && r[|r| - 1] == s[|s| - 1]
    decreases |s|
  {
    if s[0] == '\r' && |s| > 1 && s[1] == '\n' {
      if |s| > 2 {
        assert s[2..][|s| - 3] == s[|s| - 1];
        NewlinesLast(s[2..]);
      }
    } else if |s| > 1 {
      assert s[1..][|s| - 2] == s[|s| - 1];
      NewlinesLast(s[1..]);
    }
  }

  /** Text without edge whitespace keeps none after the translation, since `'\r'` and
      `'\n'` are both whitespace. */
  lemma NewlinesEdges(t: string)
    ensures NoEdgeSpace(t) ==> NoEdgeSpace(Newlines(t))
  {
    if t != [] && NoEdgeSpace(t) {
      assert IsSpace('\r');
      NewlinesLast(t);
    }
  }

  /** `get_last_posted_url()`: the contents read with newline translation and stripped, or
      `""` when there is no file. */
  function ReadMarker(st: Store): (r: string)
    ensures st.file.None? ==> r == []
    ensures NoEdgeSpace(r)
    ensures st.file.Some? && NoEdgeSpace(st.file.value) ==> r == Newlines(st.file.value)
  {
    match st.file
    case None => []
    case Some(text) =>
      NewlinesEdges(text);
      StripKeeps(Newlines(text));
      Strip(Newlines(text))
  }

  /** `save_last_posted_url(url)`: the file now holds the stripped `url`, and reading it
      back yields that text with its carriage returns translated. */
  function SaveMarker(st: Store, url: string): (r: Store)
    ensures r.file.Some?
    ensures ReadMarker(r) == Newlines(Strip(url))
  {
    Store(Some(Strip(url)))
  }

  /** A stored marker reads as its contents, newline-translated, with the surrounding
      whitespace stripped. */
  lemma ReadMarkerStrips(st: Store)
    ensures st.file.Some? ==> ReadMarker(st) == Strip(Newlines(st.file.value))
  {
  }

  /** The marker file after `open(path, "w")` has truncated it and the write raised: it
      exists, is empty and reads as `""`. */
  function Emptied(): (r: Store)
    ensures r.file.Some? && ReadMarker(r) == []
  {
    Store(Some([]))
  }

  /** A link without edge whitespace reads back as itself once saved, unless it holds a
      carriage return: then it reads back as a different text. */
  lemma MarkerRoundTrip(st: Store, link: string)
    requires NoEdgeSpace(link)
    ensures '\r' !in link ==> ReadMarker(SaveMarker(st, link)) == link
    ensures '\r' in link ==> ReadMarker(SaveMarker(st, link)) != link
  {
    StripKeeps(link);
    NewlinesPlain(link);
  }

  /** The link `a\rb`, saved as it is, reads back with a line feed in place of the
      carriage return, so it no longer matches the feed's link. */
  lemma CarriageReturnExample()
    ensures ReadMarker(SaveMarker(Store(None), "a\rb")) == "a\nb"
  {
    var s := "a\rb";
    assert s[1..] == "\rb" && s[1..][2..] == "" && "\rb"[2..] == "";
    assert Newlines("\rb") == "\nb" by {
      assert "\rb"[1..] == "b";
      assert "b"[1..] == "";
      assert Newlines("b") == "b";
    }
    assert Newlines(s) == "a\nb";
    StripKeeps(s);
  }
}

=== FILE: poster.dfy ===
/** `InstagramPoster` (app.py:219-238): a client wrapper with a `logged_in` flag. The
    Instagram client itself is an oracle: each call is given its outcome. */
module Instagram {
  import opened Wrappers
  import opened Events

  datatype Poster = Poster(loggedIn: bool)

  /** `InstagramPoster()`: not logged in. */
  function NewPoster(): (p: Poster)
    ensures !p.loggedIn
  {
    Poster(false)
  }

  /** What `login` leaves behind: the poster, the failure it raised if any, and the lines
      it logged. */
  datatype LoginAttempt = LoginAttempt(poster: Poster, failure: Option<LoginFailure>, logs: seq<LogEvent>)

  /** `login(username, password)`, where `outcome` is what the client's login raised
      (`None` when it returned). The flag is set only after the client returns. */
  function Login(p: Poster, outcome: Option<LoginFailure>): (r: LoginAttempt)
    ensures r.failure == outcome
    ensures outcome.None? ==> r.poster.loggedIn
    ensures outcome.Some? ==> r.poster == p
    ensures |r.logs| > 0 && r.logs[0] == LoginStarted
    ensures (LoginDone in r.logs) <==> outcome.None?
  {
    match outcome
    case None => LoginAttempt(Poster(true), None, [LoginStarted, LoginDone])
    case Some(f) => LoginAttempt(p, Some(f), [LoginStarted])
  }

  /** Why `post_photo` raised. */
  datatype PostError = LoginRequired | UploadRaised(msg: string)

  /** What `post_photo` does: whether it reached the client's upload, the error it raised if
      any, and the lines it logged. */
  datatype PostAttempt = PostAttempt(uploadCalled: bool, error: Option<PostError>, logs: seq<LogEvent>)

  /** `post_photo(image_path, caption)`, where `upload` is what the client's upload raised
      (`None` when it returned). Without a login nothing reaches the client. */
  function PostPhoto(p: Poster, upload: Option<string>): (r: PostAttempt)
    ensures r.uploadCalled <==> p.loggedIn
    ensures !p.loggedIn ==> r.error == Some(LoginRequired) && r.logs == []
    ensures p.loggedIn ==> (r.error.None? <==> upload.None?)
    ensures r.error.None? <==> Uploaded in r.logs
  {
    if !p.loggedIn then PostAttempt(false, Some(LoginRequired), [])
    else
      match upload
      case None => PostAttempt(true, None, [Uploading, Uploaded])
      case Some(msg) => PostAttempt(true, Some(UploadRaised(msg)), [Uploading])
  }

  /** A poster that has not logged in never publishes. */
  lemma NoPostWithoutLogin(upload: Option<string>)
    ensures PostPhoto(NewPoster(), upload).error == Some(LoginRequired)
    ensures !PostPhoto(NewPoster(), upload).uploadCalled
  {
  }

  /** After a login that returned, a post fails only if the upload itself raised. */
  lemma LoginEnablesPost(p: Poster, upload: Option<string>)
    ensures PostPhoto(Login(p, None).poster, upload).error.None? <==> upload.None?
  {
  }
}

=== FILE: seqs.dfy ===
/** Sequence helpers that give Python's slicing its exact meaning. */
module Seqs {

  function Min(a: int, b: int): int { if a <= b then a else b }

  function Max(a: int, b: int): int { if a >= b then a else b }

  /** Python's `s[:n]` for any integer `n`: a negative `n` counts from the end. */
  function SliceTo<T>(s: seq<T>, n: int): (r: seq<T>)
    ensures |r| <= |s| && r == s[..|r|]
    ensures n >= 0 ==> |r| == Min(n, |s|)
    ensures n < 0 ==> |r| == Max(0, |s| + n)
  {
    if n >= 0 then (if n <= |s| then s[..n] else s)
    else if |s| + n >= 0 then s[..|s| + n]
    else []
  }

  /** Python's `s[n:]` for any integer `n`: `s[-k:]` is the last `k` elements (all of them when
      there are fewer). */
  function SliceFrom<T>(s: seq<T>, n: int): (r: seq<T>)
    ensures |r| <= |s| && r == s[|s| - |r|..]
    ensures n >= 0 ==> |r| == Max(0, |s| - n)
    ensures n < 0 ==> |r| == Min(-n, |s|)
  {
    if n >= 0 then (if n <= |s| then s[n..] else [])
    else if |s| + n >= 0 then s[|s| + n..]
    else s
  }

  /** The concatenation of a sequence of sequences (Python's `"".join(parts)`). */
  function Concat<T>(ss: seq<seq<T>>): (r: seq<T>)
    decreases |ss|
  {
    if ss == [] then [] else ss[0] + Concat(ss[1..])
  }
}

=== FILE: text.dfy ===
/** Character classes and the whitespace handling of Python's `str` methods, as the caption,
    hashtag and excerpt helpers of app.py use them. */
module Text {

  /** Python's `str.isspace()`, which is also what `\s` matches in a `str` regular expression. */
  predicate IsSpace(c: char) {
    var n := c as int;
    || n == 0x20 || 0x9 <= n <= 0xd || 0x1c <= n <= 0x1f || n == 0x85 || n == 0xa0
    || n == 0x1680 || 0x2000 <= n <= 0x200a || n == 0x2028 || n == 0x2029 || n == 0x202f
    || n == 0x205f || n == 0x3000
  }

  /** A letter of the hashtag pattern `[a-zA-ZàèéìòùÀÈÉÌÒÙ]` (app.py:94). */
  predicate IsTitleLetter(c: char) {
    var n := c as int;
    || 0x61 <= n <= 0x7a || 0x41 <= n <= 0x5a
    || n == 0xe0 || n == 0xe8 || n == 0xe9 || n == 0xec || n == 0xf2 || n == 0xf9
    || n == 0xc0 || n == 0xc8 || n == 0xc9 || n == 0xcc || n == 0xd2 || n == 0xd9
  }

  /** The character classes the program scans text by. */
  datatype CharClass = Space | TitleLetter

  predicate InClass(k: CharClass, c: char) {
    match k
    case Space => IsSpace(c)
    case TitleLetter => IsTitleLetter(c)
  }

  /** Every character `c` of `w` has `InClass(k, c) == b`. */
  predicate AllMatch(w: string, k: CharClass, b: bool) {
    forall i :: 0 <= i < |w| ==> InClass(k, w[i]) == b
  }

  /** No whitespace at either end: what `strip()` leaves. */
  predicate NoEdgeSpace(t: string) {
    t == [] || (!IsSpace(t[0]) && !IsSpace(t[|t| - 1]))
  }

  /** The suffix left after dropping the longest prefix of characters `c` with
      `InClass(k, c) == b` (lemma `DropWhileSkipped` says what was dropped). */
  function DropWhile(s: string, k: CharClass, b: bool): (r: string)
    ensures |r| <= |s|
    ensures r == [] || InClass(k, r[0]) != b
    decreases |s|
  {
    if s != [] && InClass(k, s[0]) == b then DropWhile(s[1..], k, b) else s
  }

  /** What `DropWhile` leaves is a suffix of its input. */
  lemma {:induction false} DropWhileSuffix(s: string, k: CharClass, b: bool)
    ensures DropWhile(s, k, b) == s[|s| - |DropWhile(s, k, b)|..]
    decreases |s|
  {
    if s != [] && InClass(k, s[0]) == b {
      DropWhileSuffix(s[1..], k, b);
    }
  }

  /** Everything `DropWhile` drops matches. */
  lemma {:induction false} DropWhileSkipped(s: string, k: CharClass, b: bool)
    ensures AllMatch(s[..|s| - |DropWhile(s, k, b)|], k, b)
    decreases |s|
  {
    if s != [] && InClass(k, s[0]) == b {
      DropWhileSkipped(s[1..], k, b);
      DropWhileSuffix(s[1..], k, b);
      var r := DropWhile(s, k, b);
      assert s[..|s| - |r|] == [s[0]] + s[1..][..|s| - 1 - |r|];
    }
  }

  /** The longest prefix of characters `c` with `InClass(k, c) == b` (lemma `TakeWhileTaken`
      says it matches throughout). */
  function TakeWhile(s: string, k: CharClass, b: bool): (r: string)
    ensures |r| <= |s|
    ensures |r| == |s| || InClass(k, s[|r|]) != b
    decreases |s|
  {
    if s != [] && InClass(k, s[0]) == b then [s[0]] + TakeWhile(s[1..], k, b) else []
  }

  /** What `TakeWhile` takes is a prefix of its input. */
  lemma {:induction false} TakeWhilePrefix(s: string, k: CharClass, b: bool)
    ensures TakeWhile(s, k, b) == s[..|TakeWhile(s, k, b)|]
    decreases |s|
  {
    if s != [] && InClass(k, s[0]) == b {
      TakeWhilePrefix(s[1..], k, b);
    }
  }

  /** Everything `TakeWhile` takes matches. */
  lemma {:induction false} TakeWhileTaken(s: string, k: CharClass, b: bool)
    ensures AllMatch(TakeWhile(s, k, b), k, b)
    decreases |s|
  {
    if s != [] && InClass(k, s[0]) == b {
      TakeWhileTaken(s[1..], k, b);
    }
  }

  /** A text that starts with a matching character has a non-empty matching prefix. */
  lemma TakeNonEmpty(t: string, k: CharClass, b: bool)
    requires t != [] && InClass(k, t[0]) == b
    ensures |TakeWhile(t, k, b)| > 0
  {
  }

  /** `DropWhile` removes exactly a leading block of matching characters that is followed
      by a non-matching one (or by nothing). */
  lemma {:induction false} DropWhileSplit(a: string, c: string, k: CharClass, b: bool)
    requires AllMatch(a, k, b)
    requires c == [] || InClass(k, c[0]) != b
    ensures DropWhile(a + c, k, b) == c
    decreases |a|
  {
    if a == [] {
      assert a + c == c;
    } else {
      var s := a + c;
      assert InClass(k, a[0]) == b;
      assert s[0] == a[0] && s[1..] == a[1..] + c;
      assert AllMatch(a[1..], k, b) by {
        forall i | 0 <= i < |a| - 1 ensures InClass(k, a[1..][i]) == b {
          assert a[1..][i] == a[i + 1];
        }
      }
      DropWhileSplit(a[1..], c, k, b);
      assert DropWhile(s, k, b) == DropWhile(a[1..] + c, k, b);
    }
  }

  /** `TakeWhile` returns exactly a leading block of matching characters that is followed by
      a non-matching one (or by nothing). */
  lemma {:induction false} TakeWhileSplit(a: string, c: string, k: CharClass, b: bool)
    requires AllMatch(a, k, b)
    requires c == [] || InClass(k, c[0]) != b
    ensures TakeWhile(a + c, k, b) == a
    decreases |a|
  {
    if a == [] {
      assert a + c == c;
    } else {
      var s := a + c;
      assert s[0] == a[0] && s[1..] == a[1..] + c;
      assert TakeWhile(s, k, b) == [a[0]] + TakeWhile(s[1..], k, b);
      TakeWhileSplit(a[1..], c, k, b);
      assert [a[0]] + a[1..] == a;
    }
  }

  /** The characters `c` of `s` with `InClass(k, c) == b`, in order. */
  function Keep(s: string, k: CharClass, b: bool): (r: string)
    ensures |r| <= |s|
    decreases |s|
  {
    if s == [] then []
    else if InClass(k, s[0]) == b then [s[0]] + Keep(s[1..], k, b)
    else Keep(s[1..], k, b)
  }

  /** Keeping distributes over concatenation, so it preserves the order of what it keeps. */
  lemma {:induction false} KeepAppend(a: string, c: string, k: CharClass, b: bool)
    ensures Keep(a + c, k, b) == Keep(a, k, b) + Keep(c, k, b)
    decreases |a|
  {
    if a == [] {
      assert a + c == c;
    } else {
      assert (a + c)[0] == a[0];
      assert (a + c)[1..] == a[1..] + c;
      KeepAppend(a[1..], c, k, b);
    }
  }

  lemma {:induction false} KeepAll(s: string, k: CharClass, b: bool)
    requires AllMatch(s, k, b)
    ensures Keep(s, k, b) == s
    decreases |s|
  {
    if s != [] {
      KeepAll(s[1..], k, b);
    }
  }

  lemma {:induction false} KeepNone(s: string, k: CharClass, b: bool)
    requires AllMatch(s, k, !b)
    ensures Keep(s, k, b) == []
    decreases |s|
  {
    if s != [] {
      KeepNone(s[1..], k, b);
    }
  }

  /** A text with a matching character keeps something. */
  lemma {:induction false} KeepWitness(s: string, i: int, k: CharClass, b: bool)
    requires 0 <= i < |s| && InClass(k, s[i]) == b
    ensures Keep(s, k, b) != []
    decreases |s|
  {
    if InClass(k, s[0]) != b {
      assert s[1..][i - 1] == s[i];
      KeepWitness(s[1..], i - 1, k, b);
    }
  }

  /** Python's `lstrip()`. */
  function LStrip(s: string): (r: string)
    ensures |r| <= |s|
    ensures r == [] || !IsSpace(r[0])
  {
    DropWhile(s, Space, true)
  }

  /** Python's `rstrip()` (lemma `RStripRemoved` says what was removed). */
  function RStrip(s: string): (r: string)
    ensures |r| <= |s|
    ensures r == [] || !IsSpace(r[|r| - 1])
    decreases |s|
  {
    if s != [] && IsSpace(s[|s| - 1]) then RStrip(s[..|s| - 1]) else s
  }

  /** What `rstrip()` keeps is a prefix of its input. */
  lemma {:induction false} RStripPrefix(s: string)
    ensures RStrip(s) == s[..|RStrip(s)|]
    decreases |s|
  {
    if s != [] && IsSpace(s[|s| - 1]) {
      RStripPrefix(s[..|s| - 1]);
    }
  }

  /** Everything `rstrip()` removes is whitespace. */
  lemma {:induction false} RStripRemoved(s: string)
    ensures AllMatch(s[|RStrip(s)|..], Space, true)
    decreases |s|
  {
    if s != [] && IsSpace(s[|s| - 1]) {
      var t := s[..|s| - 1];
      RStripRemoved(t);
      RStripPrefix(t);
      var n := |RStrip(s)|;
      assert s[n..] == t[n..] + [s[|s| - 1]];
    }
  }

  /** `RStrip` removes exactly a trailing block of whitespace after a text that does not end
      in whitespace. */
  lemma {:induction false} RStripSplit(a: string, c: string)
    requires a == [] || !IsSpace(a[|a| - 1])
    requires AllMatch(c, Space, true)
    ensures RStrip(a + c) == a
    decreases |c|
  {
    if c == [] {
      assert a + c == a;
    } else {
      var s := a + c;
      assert s[|s| - 1] == c[|c| - 1];
      assert s[..|s| - 1] == a + c[..|c| - 1];
      RStripSplit(a, c[..|c| - 1]);
    }
  }

  /** Python's `strip()`: the text between the leading and the trailing whitespace. */
  function Strip(s: string): (r: string)
    ensures |r| <= |s|
    ensures NoEdgeSpace(r)
  {
    RStripPrefix(LStrip(s));
    RStrip(LStrip(s))
  }

  /** Surrounding whitespace, and only that, is what `Strip` takes away. */
  lemma StripPadded(a: string, t: string, c: string)
    requires AllMatch(a, Space, true) && AllMatch(c, Space, true)
    requires NoEdgeSpace(t)
    ensures Strip(a + t + c) == t
  {
    if t == [] {
      assert a + t + c == a + c;
      assert AllMatch(a + c, Space, true);
      DropWhileSplit(a + c, [], Space, true);
      assert a + c + [] == a + c;
    } else {
      assert a + t + c == a + (t + c);
      DropWhileSplit(a, t + c, Space, true);
      RStripSplit(t, c);
    }
  }

  /** Text without edge whitespace is a fixed point of `Strip`. */
  lemma StripKeeps(t: string)
    ensures NoEdgeSpace(t) ==> Strip(t) == t
  {
    if NoEdgeSpace(t) {
      StripPadded([], t, []);
      assert [] + t + [] == t;
    }
  }

  /** `strip()` is idempotent. */
  lemma StripIdempotent(s: string)
    ensures Strip(Strip(s)) == Strip(s)
  {
    StripKeeps(Strip(s));
  }

  predicate IsUpper(c: char) {
    'A' <= c <= 'Z' || ('\U{c0}' <= c <= '\U{de}' && c != '\U{d7}')
  }

  /** Python's `str.lower()` on the characters this program can meet in a title: ASCII and
      Latin-1 capitals map to their small letters, everything else is unchanged. */
  function LowerChar(c: char): (r: char)
    ensures !IsUpper(r)
    ensures !IsUpper(c) ==> r == c
  {
    if IsUpper(c) then (c as int + 32) as char else c
  }

  /** No capital letter anywhere in `s`. */
  predicate NoUpper(s: string) {
    forall i :: 0 <= i < |s| ==> !IsUpper(s[i])
  }

  function Lower(s: string): (r: string)
    ensures |r| == |s|
    ensures NoUpper(r)
  {
    seq(|s|, i requires 0 <= i < |s| => LowerChar(s[i]))
  }

  /** Each character of `Lower(s)` is its own small letter: an ASCII or Latin-1 capital
      moves 32 code points down to its small letter, anything else is unchanged. */
  lemma LowerSpec(s: string, i: int)
    requires 0 <= i < |s|
    ensures !IsUpper(s[i]) ==> Lower(s)[i] == s[i]
    ensures IsUpper(s[i]) ==> Lower(s)[i] as int == s[i] as int + 32
  {
  }

  /** `sub` occurs in `s` starting at index `i`. */
  predicate OccursAt(s: string, sub: string, i: int) {
    0 <= i <= |s| - |sub| && s[i..i + |sub|] == sub
  }

  /** Python's `sub in s`. */
  function Contains(s: string, sub: string): (r: bool)
    ensures r <==> exists i :: OccursAt(s, sub, i)
    decreases |s|
  {
    if |sub| > |s| then false
    else if s[..|sub|] == sub then
      assert OccursAt(s, sub, 0);
      true
    else
      var r := Contains(s[1..], sub);
      assert forall i :: OccursAt(s, sub, i) ==> i > 0 && OccursAt(s[1..], sub, i - 1);
      assert forall i :: OccursAt(s[1..], sub, i) ==> OccursAt(s, sub, i + 1);
      r
  }
}

=== FILE: words.dfy ===
/** Runs of a character class, joining with a separator, and the whitespace collapse
    `re.sub(r"\s+", " ", s).strip()` of `clean_text` (app.py:77), proved equal to
    `" ".join(s.split())`. */
module Words {
  import opened Seqs
  import opened Text

  /** The maximal runs of characters `c` with `InClass(k, c) == b`, left to right:
      `s.split()` when `k` is `Space` and `b` is false, `re.findall("[...]+", s)` for the
      one-class pattern of `k` when `b` is true. */
  function Runs(s: string, k: CharClass, b: bool): seq<string>
    decreases |s|
  {
    var t := DropWhile(s, k, !b);
    if t == [] then []
    else
      var w := TakeWhile(t, k, b);
      TakeNonEmpty(t, k, b);
      [w] + Runs(t[|w|..], k, b)
  }

  /** One step of `Runs`: the first run, then the runs of what follows it. */
  lemma RunsStep(s: string, k: CharClass, b: bool)
    requires DropWhile(s, k, !b) != []
    ensures var t := DropWhile(s, k, !b);
      && |TakeWhile(t, k, b)| > 0
      && Runs(s, k, b) == [TakeWhile(t, k, b)] + Runs(t[|TakeWhile(t, k, b)|..], k, b)
  {
  }

  /** Dropping a leading block of non-members first does not change the runs. */
  lemma RunsDrop(s: string, k: CharClass, b: bool)
    ensures Runs(s, k, b) == Runs(DropWhile(s, k, !b), k, b)
  {
    var t := DropWhile(s, k, !b);
    DropWhileSplit([], t, k, !b);
    assert [] + t == t;
  }

  /** Every element of `rs` is a non-empty run of members. */
  predicate AllRuns(rs: seq<string>, k: CharClass, b: bool) {
    forall j :: 0 <= j < |rs| ==> |rs[j]| > 0 && AllMatch(rs[j], k, b)
  }

  lemma AllRunsCons(w: string, rs: seq<string>, k: CharClass, b: bool)
    requires |w| > 0 && AllMatch(w, k, b) && AllRuns(rs, k, b)
    ensures AllRuns([w] + rs, k, b)
  {
  }

  /** Every run is non-empty and made of members only. */
  lemma {:induction false} RunsShape(s: string, k: CharClass, b: bool)
    ensures AllRuns(Runs(s, k, b), k, b)
    decreases |s|
  {
    var t := DropWhile(s, k, !b);
    if t != [] {
      RunsStep(s, k, b);
      var w := TakeWhile(t, k, b);
      TakeWhileTaken(t, k, b);
      RunsShape(t[|w|..], k, b);
      AllRunsCons(w, Runs(t[|w|..], k, b), k, b);
    }
  }

  /** The characters `DropWhile` skips are not kept. */
  lemma KeepDrop(s: string, k: CharClass, b: bool)
    ensures Keep(s, k, b) == Keep(DropWhile(s, k, !b), k, b)
  {
    var t := DropWhile(s, k, !b);
    var d := |s| - |t|;
    DropWhileSuffix(s, k, !b);
    DropWhileSkipped(s, k, !b);
    assert s == s[..d] + t;
    KeepAppend(s[..d], t, k, b);
    KeepNone(s[..d], k, b);
  }

  /** The characters `TakeWhile` takes are all kept. */
  lemma KeepTake(t: string, k: CharClass, b: bool)
    ensures var w := TakeWhile(t, k, b); Keep(t, k, b) == w + Keep(t[|w|..], k, b)
  {
    var w := TakeWhile(t, k, b);
    TakeWhilePrefix(t, k, b);
    TakeWhileTaken(t, k, b);
    assert t == w + t[|w|..];
    KeepAppend(w, t[|w|..], k, b);
    KeepAll(w, k, b);
  }

  lemma ConcatCons(w: string, ws: seq<string>)
    ensures Concat([w] + ws) == w + Concat(ws)
  {
    assert ([w] + ws)[1..] == ws;
  }

  /** The runs hold exactly the member characters of `s`, in order. */
  lemma {:induction false} RunsContent(s: string, k: CharClass, b: bool)
    ensures Concat(Runs(s, k, b)) == Keep(s, k, b)
    decreases |s|
  {
    var t := DropWhile(s, k, !b);
    KeepDrop(s, k, b);
    if t != [] {
      RunsStep(s, k, b);
      var w := TakeWhile(t, k, b);
      KeepTake(t, k, b);
      RunsContent(t[|w|..], k, b);
      ConcatCons(w, Runs(t[|w|..], k, b));
    }
  }

  /** A run of members followed by a non-member (or by nothing) is the first run. */
  lemma RunsFirst(w: string, rest: string, k: CharClass, b: bool)
    requires |w| > 0 && AllMatch(w, k, b)
    requires rest == [] || InClass(k, rest[0]) != b
    ensures Runs(w + rest, k, b) == [w] + Runs(rest, k, b)
  {
    DropWhileSplit([], w + rest, k, !b);
    assert [] + (w + rest) == w + rest;
    TakeWhileSplit(w, rest, k, b);
    RunsStep(w + rest, k, b);
    assert (w + rest)[|w|..] == rest;
  }

  /** A leading block of non-members contributes no run. */
  lemma RunsSkip(a: string, v: string, k: CharClass, b: bool)
    requires AllMatch(a, k, !b)
    requires v == [] || InClass(k, v[0]) == b
    ensures Runs(a + v, k, b) == Runs(v, k, b)
  {
    RunsDrop(a + v, k, b);
    DropWhileSplit(a, v, k, !b);
    RunsDrop(v, k, b);
    DropWhileSplit([], v, k, !b);
    assert [] + v == v;
  }

  /** Runs are maximal: after a block of non-members, a run of members that ends at a
      non-member (or at the end) is taken whole as the next run. */
  lemma RunsMaximal(a: string, w: string, rest: string, k: CharClass, b: bool)
    requires AllMatch(a, k, !b)
    requires |w| > 0 && AllMatch(w, k, b)
    requires rest == [] || InClass(k, rest[0]) != b
    ensures Runs(a + w + rest, k, b) == [w] + Runs(rest, k, b)
  {
    assert a + w + rest == a + (w + rest);
    assert (w + rest)[0] == w[0];
    RunsSkip(a, w + rest, k, b);
    RunsFirst(w, rest, k, b);
  }

  /** Python's `sep.join(ws)`. */
  function Join(sep: string, ws: seq<string>): string
    decreases |ws|
  {
    if |ws| == 0 then []
    else if |ws| == 1 then ws[0]
    else ws[0] + sep + Join(sep, ws[1..])
  }

  /** Joining `a + c` is joining each part and putting one separator between them. */
  lemma {:induction false} JoinAppend(sep: string, a: seq<string>, c: seq<string>)
    requires |a| > 0 && |c| > 0
    ensures Join(sep, a + c) == Join(sep, a) + sep + Join(sep, c)
    decreases |a|
  {
    if |a| == 1 {
      assert (a + c)[1..] == c;
    } else {
      assert (a + c)[1..] == a[1..] + c;
      JoinAppend(sep, a[1..], c);
    }
  }

  /** Python's `s.split()`: the whitespace-separated words of `s`. */
  function Split(s: string): seq<string>
  {
    Runs(s, Space, false)
  }

  /** Every element of `ws` is a word. */
  predicate AllWords(ws: seq<string>) {
    AllRuns(ws, Space, false)
  }

  /** `Split` yields words, and together they are the non-whitespace characters of `s`. */
  lemma SplitWords(s: string)
    ensures AllWords(Split(s))
    ensures Concat(Split(s)) == Keep(s, Space, false)
  {
    RunsShape(s, Space, false);
    RunsContent(s, Space, false);
  }

  /** Joining words with one space yields text with no whitespace at its ends. */
  lemma {:induction false} JoinNoEdge(ws: seq<string>)
    requires AllWords(ws)
    ensures NoEdgeSpace(Join(" ", ws))
    ensures |ws| > 0 ==> |Join(" ", ws)| > 0
    decreases |ws|
  {
    if |ws| > 1 {
      assert AllWords(ws[1..]);
      JoinNoEdge(ws[1..]);
      var j := Join(" ", ws[1..]);
      assert Join(" ", ws) == ws[0] + " " + j;
      assert Join(" ", ws)[0] == ws[0][0];
    } else if |ws| == 1 {
      assert |ws[0]| > 0 && AllMatch(ws[0], Space, false);
    }
  }

  /** Splitting text made by joining words with single spaces gives the words back. */
  lemma {:induction false} SplitJoin(ws: seq<string>)
    requires AllWords(ws)
    ensures Split(Join(" ", ws)) == ws
    decreases |ws|
  {
    if |ws| == 1 {
      assert |ws[0]| > 0 && AllMatch(ws[0], Space, false);
      RunsFirst(ws[0], [], Space, false);
      assert ws[0] + [] == ws[0];
    } else if |ws| > 1 {
      assert |ws[0]| > 0 && AllMatch(ws[0], Space, false);
      assert AllWords(ws[1..]);
      SplitJoinStep(ws[0], ws[1..]);
      SplitJoin(ws[1..]);
      assert [ws[0]] + ws[1..] == ws;
    }
  }

  lemma SplitJoinStep(w: string, ws: seq<string>)
    requires |w| > 0 && AllMatch(w, Space, false)
    requires |ws| > 0 && AllWords(ws)
    ensures Split(Join(" ", [w] + ws)) == [w] + Split(Join(" ", ws))
  {
    JoinNoEdge(ws);
    JoinCons(" ", w, ws);
    SplitWordSpace(w, Join(" ", ws));
  }

  /** Joining a word before a non-empty list puts one separator after it. */
  lemma JoinCons(sep: string, w: string, ws: seq<string>)
    requires |ws| > 0
    ensures Join(sep, [w] + ws) == w + (sep + Join(sep, ws))
  {
    assert ([w] + ws)[1..] == ws;
  }

  /** A word, one space, then a word-led text: the word is the first word. */
  lemma SplitWordSpace(w: string, j: string)
    requires |w| > 0 && AllMatch(w, Space, false)
    requires j == [] || !IsSpace(j[0])
    ensures Split(w + (" " + j)) == [w] + Split(j)
  {
    RunsFirst(w, " " + j, Space, false);
    RunsSkip(" ", j, Space, false);
  }

  /** `re.sub(r"\s+", " ", s)`: every maximal run of whitespace becomes one space. */
  function SquashRuns(s: string): string
    decreases |s|
  {
    if s == [] then []
    else if IsSpace(s[0]) then [' '] + SquashRuns(LStrip(s[1..]))
    else [s[0]] + SquashRuns(s[1..])
  }

  /** The whitespace collapse of `clean_text` (app.py:77): `re.sub(r"\s+", " ", s).strip()`.
      It equals Python's `" ".join(s.split())` (lemma `CollapseIsJoinSplit`). */
  function Collapse(s: string): (r: string)
    ensures NoEdgeSpace(r)
  {
    Strip(SquashRuns(s))
  }

  /** A word passes through `SquashRuns` unchanged. */
  lemma {:induction false} SquashWord(w: string, rest: string)
    requires AllMatch(w, Space, false)
    ensures SquashRuns(w + rest) == w + SquashRuns(rest)
    decreases |w|
  {
    if w == [] {
      assert w + rest == rest;
    } else {
      assert (w + rest)[0] == w[0];
      assert (w + rest)[1..] == w[1..] + rest;
      SquashWord(w[1..], rest);
      assert [w[0]] + (w[1..] + SquashRuns(rest)) == w + SquashRuns(rest);
    }
  }

  /** A non-empty run of whitespace before a word (or the end) becomes a single space. */
  lemma SquashSpaces(a: string, v: string)
    requires |a| > 0 && AllMatch(a, Space, true)
    requires v == [] || !IsSpace(v[0])
    ensures SquashRuns(a + v) == " " + SquashRuns(v)
  {
    assert (a + v)[0] == a[0];
    assert (a + v)[1..] == a[1..] + v;
    DropWhileSplit(a[1..], v, Space, true);
  }

  /** A single space if `u` ends in whitespace, nothing otherwise. */
  function TrailingSpace(u: string): string {
    if u != [] && IsSpace(u[|u| - 1]) then " " else ""
  }

  /** A text that starts with a word splits into that word and a whitespace-led rest. */
  lemma WordThenRest(u: string)
    requires u != [] && !IsSpace(u[0])
    ensures var w := TakeWhile(u, Space, false);
      && |w| > 0 && AllMatch(w, Space, false) && u == w + u[|w|..]
      && (u[|w|..] == [] || IsSpace(u[|w|..][0]))
  {
    TakeWhilePrefix(u, Space, false);
    TakeWhileTaken(u, Space, false);
  }

  /** A whitespace-led text splits into its whitespace and a word-led rest. */
  lemma SpacesThenRest(r: string)
    requires r != [] && IsSpace(r[0])
    ensures var v := LStrip(r); var a := r[..|r| - |v|];
      && |a| > 0 && AllMatch(a, Space, true) && r == a + v
      && (v == [] || !IsSpace(v[0]))
  {
    DropWhileSuffix(r, Space, true);
    DropWhileSkipped(r, Space, true);
  }

  /** From the start of a word, `SquashRuns` is the words joined by single spaces, plus one
      space if the text ends in whitespace. */
  lemma {:induction false} SquashFromWord(u: string)
    requires u == [] || !IsSpace(u[0])
    ensures SquashRuns(u) == Join(" ", Split(u)) + TrailingSpace(u)
    decreases |u|
  {
    if u != [] {
      WordThenRest(u);
      var w := TakeWhile(u, Space, false);
      var rest := u[|w|..];
      RunsFirst(w, rest, Space, false);
      SquashWord(w, rest);
      if rest == [] {
        assert u == w;
      } else {
        SpacesThenRest(rest);
        var v := LStrip(rest);
        var a := rest[..|rest| - |v|];
        SquashSpaces(a, v);
        RunsSkip(a, v, Space, false);
        SquashFromWord(v);
        SquashTail(w, a, v);
      }
    }
  }

  /** The inductive step of `SquashFromWord`, with the pieces named. */
  lemma SquashTail(w: string, a: string, v: string)
    requires |w| > 0 && AllMatch(w, Space, false)
    requires |a| > 0 && AllMatch(a, Space, true)
    requires v == [] || !IsSpace(v[0])
    requires SquashRuns(v) == Join(" ", Split(v)) + TrailingSpace(v)
    ensures w + (" " + SquashRuns(v)) == Join(" ", [w] + Split(v)) + TrailingSpace(w + (a + v))
  {
    if v == [] {
      SquashTailEnd(w, a);
    } else {
      RunsFirstNonEmpty(v);
      SquashTailMore(w, a, v, Split(v));
    }
  }

  lemma SquashTailEnd(w: string, a: string)
    requires |w| > 0 && AllMatch(w, Space, false)
    requires |a| > 0 && AllMatch(a, Space, true)
    ensures w + (" " + SquashRuns([])) == Join(" ", [w] + Split([])) + TrailingSpace(w + (a + []))
  {
    var u := w + (a + []);
    assert Split([]) == [];
    assert [w] + [] == [w];
    assert u[|u| - 1] == a[|a| - 1];
  }

  lemma SquashTailMore(w: string, a: string, v: string, ws: seq<string>)
    requires |a| > 0
    requires v != [] && |ws| > 0
    requires SquashRuns(v) == Join(" ", ws) + TrailingSpace(v)
    ensures w + (" " + SquashRuns(v)) == Join(" ", [w] + ws) + TrailingSpace(w + (a + v))
  {
    var u := w + (a + v);
    JoinCons(" ", w, ws);
    assert u[|u| - 1] == v[|v| - 1];
    assert TrailingSpace(u) == TrailingSpace(v);
  }

  /** Text that starts with a word has at least one word. */
  lemma RunsFirstNonEmpty(v: string)
    requires v != [] && !IsSpace(v[0])
    ensures |Split(v)| > 0
  {
    DropWhileSplit([], v, Space, true);
    assert [] + v == v;
    RunsStep(v, Space, false);
  }

  /** The collapse of `clean_text` is Python's `" ".join(s.split())`. */
  lemma CollapseIsJoinSplit(s: string)
    ensures Collapse(s) == Join(" ", Split(s))
  {
    var u := LStrip(s);
    var a := s[..|s| - |u|];
    DropWhileSuffix(s, Space, true);
    DropWhileSkipped(s, Space, true);
    assert s == a + u;
    RunsDrop(s, Space, false);
    SquashFromWord(u);
    SplitWords(u);
    JoinNoEdge(Split(u));
    var j := Join(" ", Split(u));
    var e := TrailingSpace(u);
    TrailingSpaceIsSpace(u);
    if a == [] {
      StripAfter(SquashRuns(s), j, e);
    } else {
      SquashSpaces(a, u);
      StripAfterSpace(SquashRuns(s), SquashRuns(u), j, e);
    }
  }

  lemma TrailingSpaceIsSpace(u: string)
    ensures AllMatch(TrailingSpace(u), Space, true)
  {
  }

  lemma StripAfter(q: string, j: string, e: string)
    requires q == j + e && NoEdgeSpace(j) && AllMatch(e, Space, true)
    ensures Strip(q) == j
  {
    StripPadded([], j, e);
    assert [] + j + e == q;
  }

  lemma StripAfterSpace(q: string, q': string, j: string, e: string)
    requires q == " " + q' && q' == j + e && NoEdgeSpace(j) && AllMatch(e, Space, true)
    ensures Strip(q) == j
  {
    StripPadded(" ", j, e);
    assert " " + j + e == q;
  }

  /** Collapsing whitespace twice is collapsing it once. */
  lemma CollapseIdempotent(s: string)
    ensures Collapse(Collapse(s)) == Collapse(s)
  {
    CollapseIsJoinSplit(s);
    CollapseIsJoinSplit(Collapse(s));
    SplitWords(s);
    SplitJoin(Split(s));
  }

  /** Text with a non-whitespace character does not collapse to nothing. */
  lemma CollapseNonEmpty(s: string, i: int)
    requires 0 <= i < |s| && !IsSpace(s[i])
    ensures Collapse(s) != []
  {
    CollapseIsJoinSplit(s);
    SplitWords(s);
    KeepWitness(s, i, Space, false);
    JoinNoEdge(Split(s));
  }
}

=== FILE: wrappers.dfy ===
/** Failure-carrying datatypes used where the program returns a sentinel or raises. */
module Wrappers {

  /** A value that may be absent: a missing attribute, file or dictionary key. */
  datatype Option<+T> = None | Some(value: T) {

    /** The carried value, or `default` when there is none (Python's `d.get(k, default)`). */
    function GetOr(default: T): (r: T)
      ensures Some? ==> r == value
      ensures None? ==> r == default
    {
      match this
      case Some(v) => v
      case None => default
    }
  }

  /** The outcome of a call that either returns a value or raises an error. */
  datatype Result<+T, +E> = Success(value: T) | Failure(error: E)
}
